=== FILE: README.md ===
# Paste access and view counting, modelled in Dafny

This project models the core of a Go pastebin service: the paste store, the
per-paste view ledger, the services in front of them, JWT bearer
authentication, the dynamic `SET` builder, and the request checks the HTTP
handlers make before calling the services.

The database is a value. `Models.Db` holds two immutable maps:

- `pastes`: paste id to `Paste` row;
- `ledger`: paste id to `ViewRecord` (the `pastes_analytics` table).

Every repository call is a pure function from a `Db` to an `Outcome`: the new
`Db` and a `Result`. The following are explicit parameters rather than hidden
effects:

- the clock (`now`, an `Instant` in nanoseconds);
- the caller's identity;
- the identifiers the database or `uuid.New()` would generate;
- `BASE_URL`;
- the password hasher;
- the success of the best-effort view increment (`countOk`).

Expiry is written two ways, as the source writes it:

- Go code checks `expires_at.Before(now)` (`Models.ExpiredAt`);
- SQL filters keep `expires_at IS NULL OR expires_at > NOW()` (`Models.LiveAt`).

The model keeps both and proves where they differ.

Modules follow the source layout:

| module | file | models |
|---|---|---|
| `Wrappers` | wrappers.dfy | `Option` / `Result` |
| `Text` | text.dfy | `strings.Split`, `strings.SplitN(_, _, 2)`, UTF-8 byte length, decimal rendering |
| `Ordering` | ordering.dfy | `ORDER BY`, `LIMIT`/`OFFSET` and `WHERE` over a table |
| `Models` | models.dfy | rows, inputs, outputs, error kinds, the two expiry tests |
| `PasteRepository` | paste_repository.dfy | internal/repositories/paste_repository.go |
| `AnalyticsRepository` | analytics_repository.dfy | internal/repositories/analytics_repository.go |
| `PasteService` | paste_service.dfy | internal/services/paste_service.go |
| `AnalyticsService` | analytics_service.dfy | internal/services/analytics_service.go |
| `Jwt` | jwt.dfy | internal/auth/jwt.go |
| `AuthMiddleware` | auth_middleware.dfy | internal/auth/auth_middleware.go |
| `BuildSets` | build_sets.dfy | pkg/utils/utils.go |
| `AuthHandlers` | auth_handlers.dfy | the input checks of internal/handlers/auth.go |
| `PasteHandlers` | paste_handlers.dfy | the parameter checks of internal/handlers/pastes.go |

## Model

| member | source | states |
|---|---|---|
| PasteRepository.CreatePaste | internal/repositories/paste_repository.go:27-82 | Creation succeeds exactly when hashing succeeds, the id is free and no row already uses the share url. The new row belongs to the caller. An empty title becomes "Untitled". The row is private exactly when a password was given, and then stores the hash. The url is the base url + "/p/" + 8 uuid characters. No other row and no ledger row changes; a failure changes nothing. |
| PasteRepository.ShareUrlShape | internal/repositories/paste_repository.go:33-40 | A share url starts with the base url and ends with "/p/" followed by the eight-character slug. |
| PasteRepository.CreateKeepsPrivacyConsistent | internal/repositories/paste_repository.go:41-51 | Creating a paste keeps every row's is_private equal to "has a password hash", given a hasher that never returns an empty hash. |
| PasteRepository.CreateKeepsWellKeyed | internal/repositories/paste_repository.go:61 | After a creation every row is still stored under its own id. |
| PasteRepository.UpdatePaste | internal/repositories/paste_repository.go:84-149 | The three failures come in the source's order, each exactly in its own case. A hash error is first, for a non-empty password the hasher rejects. Not-found is for a missing id. An id collision is for a patch that moves the row onto another row's id. The patch succeeds exactly when none of these applies. Any failure changes nothing. On success the patched row carries updated_at = now, every other row is untouched, and the ledger is untouched. |
| PasteRepository.UpdateEmptyPasswordMakesPublic | internal/repositories/paste_repository.go:89-97 | An empty password without is_private removes the hash and makes the paste public. |
| PasteRepository.UpdatePasswordMakesPrivate | internal/repositories/paste_repository.go:98-109 | A non-empty password without is_private stores its hash and makes the paste private. |
| PasteRepository.UpdateExplicitPrivacyWins | internal/repositories/paste_repository.go:94-108 | An explicit is_private in the patch decides privacy, whatever the password implies. |
| PasteRepository.UpdateLeavesAbsentFields | internal/repositories/paste_repository.go:84-149 | On a successful patch each of id, user_id, title, content and language takes the patch value when one is given and keeps the old value otherwise. url, expires_at and created_at always keep theirs, and updated_at becomes now. Without a password the hash stays; without a password and without is_private, privacy stays. |
| PasteRepository.UpdateKeepsPrivacyConsistent | internal/repositories/paste_repository.go:88-110 | A patch without an explicit is_private keeps every row's is_private equal to "has a password hash". |
| PasteRepository.UpdateKeepsWellKeyed | internal/repositories/paste_repository.go:116-118 | After a patch, including one that rewrites the id column, every row is still stored under its own id. |
| PasteRepository.IncrementViewCount | internal/repositories/paste_repository.go:180-186 | The upsert adds exactly one view. A paste without a ledger row gets one holding 1 view, and its updated_at becomes now. Every other ledger row is unchanged. |
| PasteRepository.GetPasteByID | internal/repositories/paste_repository.go:151-178 | The read succeeds exactly when the paste exists and has not expired; missing and expired pastes fail for every caller, the owner included. The output carries the view count read before the increment. Anyone but the authenticated owner adds one view when the increment succeeds. The owner's read, and a failed increment, leave the database unchanged. |
| PasteRepository.ReadIgnoresCountFailure | internal/repositories/paste_repository.go:171-175 | Whether the view increment fails never changes what the read returns. |
| PasteRepository.ExpiredPasteUnreadable | internal/repositories/paste_repository.go:164-166 | An expired paste cannot be read by id by anyone, and no slug read returns it. |
| PasteRepository.NonOwnerReadsCountEach | internal/repositories/paste_repository.go:168-176 | n reads of a live paste by an authenticated non-owner add exactly n views and leave the pastes table unchanged. |
| PasteRepository.OwnerReadsDoNotCount | internal/repositories/paste_repository.go:168-169 | Any number of reads by the owner leave the whole database unchanged. |
| PasteRepository.GetAllPastes | internal/repositories/paste_repository.go:188-215 | Fails exactly for a negative limit or offset. The page is exactly the LIMIT/OFFSET window of OwnedLive, the newest-first list of the user's live pastes, and total is that list's length: the number of the user's rows live by the SQL clock. |
| PasteRepository.OwnedLive | internal/repositories/paste_repository.go:197-202 | The unpaged query result is a permutation of the user's live rows: every live paste of the user appears, with its joined view count, nothing else does, and the list is sorted newest first. |
| PasteRepository.OwnedLiveDistinct | internal/repositories/paste_repository.go:197-202 | When every row is stored under its own id, the query result holds no paste twice. |
| PasteRepository.GetAllPastesNoRepeats | internal/repositories/paste_repository.go:188-215 | No page holds a paste twice. |
| PasteRepository.DeletePasteByID | internal/repositories/paste_repository.go:217-251 | Deletion fails with not-found exactly when the id is absent. Otherwise it removes exactly that row and leaves the ledger row behind. |
| PasteRepository.SlugMatches | internal/repositories/paste_repository.go:255-256 | Selects exactly the rows whose url ends in "/p/" + slug. |
| PasteRepository.GetPasteBySlug | internal/repositories/paste_repository.go:253-285 | Anything other than exactly one matching row is not-found. The single match is returned exactly when it is neither expired nor private. A successful read counts one view whoever reads, a failed increment leaves the ledger as it was, and every other ledger row is unchanged. The pastes table stays unchanged. |
| PasteRepository.SortColumnOf | internal/repositories/paste_repository.go:323-333 | Each of updated_at, views and title selects its own column, in both directions of the iff. Every other sort_by sorts by created_at. |
| PasteRepository.SortDirectionOf | internal/repositories/paste_repository.go:336-339 | The order is ascending exactly for "asc" or "ASC"; anything else is descending. |
| PasteRepository.OrderClause | internal/repositories/paste_repository.go:322-344 | The ORDER BY text is always one of eight fixed allow-listed clauses, so no caller text reaches the query. |
| PasteRepository.UnknownSortFallsBack | internal/repositories/paste_repository.go:323-339 | An unknown sort_by with an unknown sort_order gives the same clause as no filter: "p.created_at DESC". |
| PasteRepository.FilterPastes | internal/repositories/paste_repository.go:287-366 | The result is a permutation of the rows of the user's live pastes that match the language set and the inclusive created_at range: each such paste appears, with its view count, and nothing else. It is sorted by the allow-listed column and direction, and never holds another user's paste. |
| PasteRepository.FilterPastesDistinct | internal/repositories/paste_repository.go:287-366 | When every row is stored under its own id, the filtered list holds no paste twice. |
| Models.ExpiryDefinitionsDisagreeOnlyAtTheInstant | internal/repositories/paste_repository.go:164-165 | The Go test ("before now") and the SQL test ("after now") agree except at the instant of expiry, when a paste is neither expired nor live. |
| Models.ViewsOf | internal/repositories/paste_repository.go:152 | The COALESCE of the joined view count: a paste without a ledger row has 0 views. |
| AnalyticsRepository.CreateAnalytics | internal/repositories/analytics_repository.go:25-40 | An existing row for the paste makes the insert fail and changes nothing. Otherwise exactly one row is added, with 0 views and both timestamps now. |
| AnalyticsRepository.GetAnalyticsByPasteID | internal/repositories/analytics_repository.go:42-57 | No-rows becomes None exactly when the paste has no ledger row. Otherwise the result carries that paste's view count. |
| AnalyticsRepository.IncrementViews | internal/repositories/analytics_repository.go:59-85 | Adds one view to an existing row and leaves every other row unchanged. Without a row nothing changes and the call still succeeds. |
| AnalyticsRepository.CreateThenGet | internal/repositories/analytics_repository.go:25-57 | A row just created is found by paste id with 0 views and the given url. |
| AnalyticsRepository.IncrementsAgree | internal/repositories/analytics_repository.go:59-85 | On a paste that already has a row, the analytics increment and the read path's upsert give every row the same view count. Without a row, only the upsert counts a view (0 against 1). |
| AnalyticsRepository.UrlMatches | internal/repositories/analytics_repository.go:87-89 | Selects exactly the ledger rows whose url equals the given one. |
| AnalyticsRepository.GetAnalyticsByURL | internal/repositories/analytics_repository.go:87-102 | Gives None exactly when no ledger row has the url; a found row has that url. |
| AnalyticsRepository.GetAnalyticsByID | internal/repositories/analytics_repository.go:154-166 | Succeeds exactly when one ledger row carries the row id; otherwise it is not-found. |
| AnalyticsRepository.DuplicateRowIdsRejected | internal/repositories/analytics_repository.go:161-164 | Two ledger rows with the same row id make the exactly-one lookup fail. |
| AnalyticsRepository.LedgerColumnOf | internal/repositories/analytics_repository.go:107-115 | updated_at and views select their own columns, in both directions of the iff. Every other order, created_at included, selects created_at. |
| AnalyticsRepository.LedgerOrderClause | internal/repositories/analytics_repository.go:104-116 | The ORDER BY text is always one of three fixed descending clauses. |
| AnalyticsRepository.UnknownLedgerOrderFallsBack | internal/repositories/analytics_repository.go:112-115 | An order outside the allow-list sorts by created_at DESC. |
| AnalyticsRepository.GetAllAnalytics | internal/repositories/analytics_repository.go:104-127 | Fails exactly for a negative limit or offset. Otherwise the result is exactly the LIMIT/OFFSET window of SelectedRows over every ledger row, in descending order of the chosen column, with no paste twice. |
| AnalyticsRepository.GetAllAnalyticsByUser | internal/repositories/analytics_repository.go:129-152 | Like GetAllAnalytics, but the window is taken over the rows whose paste belongs to the user, with no paste twice. |
| AnalyticsRepository.SelectedRows | internal/repositories/analytics_repository.go:116-126 | The unpaged query result: a row is in it exactly when it is a selected ledger row as stored, no paste appears twice, its length is the number of selected rows, and it is in descending order of the column. |
| AnalyticsRepository.LedgerPage | internal/repositories/analytics_repository.go:112-126 | The page is exactly the LIMIT/OFFSET window of SelectedRows: min(limit, rows - offset) rows, each as stored, no paste twice, descending on the allow-listed column. |
| AnalyticsService.CreateAnalytics | internal/services/analytics_service.go:25-46 | A Nil id and an empty url are rejected, each exactly in its own case. An existing row is left alone and still counts as success. Otherwise exactly one row with 0 views is added. |
| AnalyticsService.CreateAnalyticsIdempotent | internal/services/analytics_service.go:32-45 | Creating the same paste's analytics twice leaves the database as one creation does, with the same verdict. |
| AnalyticsService.GetAnalyticsByPasteID | internal/services/analytics_service.go:48-53 | A Nil id is rejected exactly; otherwise the repository's answer, None exactly when no row exists. |
| AnalyticsService.GetAnalyticsByID | internal/services/analytics_service.go:55-61 | Succeeds exactly for a non-Nil row id held by exactly one ledger row. |
| AnalyticsService.IncrementViews | internal/services/analytics_service.go:63-69 | A Nil id is rejected exactly. Any other id succeeds, adding one view to an existing row and keeping its updated_at. The pastes table, the set of ledger rows and every other ledger row are unchanged; without a row nothing changes. |
| AnalyticsService.GetAnalyticsByURL | internal/services/analytics_service.go:71-84 | An empty url is rejected exactly. Not-found is returned exactly when no ledger row has the url. |
| AnalyticsService.DefaultedLimit | internal/services/analytics_service.go:87-89 | A non-positive limit becomes the default; a positive one is kept. |
| AnalyticsService.DefaultedOffset | internal/services/analytics_service.go:90-92 | A negative offset becomes 0; others are kept. |
| AnalyticsService.DefaultedOrder | internal/services/analytics_service.go:93-95 | An empty order becomes "created_at DESC"; others are kept. |
| AnalyticsService.GetAllAnalytics | internal/services/analytics_service.go:86-97 | Always succeeds, because the defaults make the page arguments valid. The result is exactly the window of all ledger rows that the defaulted order, limit and offset select, with no paste twice. |
| AnalyticsService.EmptyOrderIsCreatedAt | internal/services/analytics_service.go:93-96 | An empty order lists exactly as "created_at" does. |
| AnalyticsService.GetAllAnalyticsByUser | internal/services/analytics_service.go:99-121 | Fails exactly for the Nil user. Otherwise it is exactly the defaulted window of the rows of that user's pastes, in descending order of the chosen column, with no paste twice. |
| AnalyticsService.EveryRowOnce | internal/services/analytics_service.go:86-97 | Reading the pages from offset 0, one defaulted limit at a time, returns the whole ordered list of ledger rows, which holds every ledger row as stored and nothing else. |
| PasteService.CreatePaste | internal/services/paste_service.go:25-37 | Without a caller identity nothing is stored. With one, the outcome is exactly the repository's creation for that caller: the new paste belongs to the caller, and a failure changes nothing. |
| PasteService.UpdatePaste | internal/services/paste_service.go:39-57 | As written: a caller is required, and a missing or expired paste is not-found. For a known caller and a live paste, the result is the repository patch's result, whoever the caller is. So the update succeeds exactly when the caller is known, the paste is live, the hash succeeds and the new id is free, with no ownership condition. The readability check is the authenticated read. A stranger's call on a live paste adds one view when the increment succeeds, any other call leaves the ledger alone, and other ledger rows never change. |
| PasteService.StrangerCanUpdate | internal/services/paste_service.go:46-51 | A user who does not own a live paste can change its title through UpdatePaste. |
| PasteService.UpdatePasteOwnerChecked | internal/services/paste_service.go:39-57 | With the ownership check: a non-owner's patch fails and leaves every paste unchanged. A success is the owner's patch of a live paste. The read before the check still counts a stranger's view exactly as in the unchecked version. |
| PasteService.OwnerCheckOnlyRejectsStrangers | internal/services/paste_service.go:109-112 | For the owner the checked update behaves exactly as the unchecked one. |
| PasteService.GetPasteByID | internal/services/paste_service.go:59-67 | Succeeds exactly for a live paste and returns its id with the view count read before the increment. A failure changes nothing. |
| PasteService.ClampLimit | internal/services/paste_service.go:71-76 | The limit used is always in 1..100. A non-positive one becomes 10, a larger one becomes 100, and anything in range is kept. |
| PasteService.ClampOffset | internal/services/paste_service.go:77-79 | The offset used is never negative; a non-negative one is kept. |
| PasteService.GetAllPastes | internal/services/paste_service.go:69-96 | Always succeeds with the clamped limit and offset. The page is exactly the window of the user's newest-first live pastes those select, and total is the number of them. hasMore holds exactly when offset + limit < total. |
| PasteService.HasMoreMeansNextPage | internal/services/paste_service.go:82-95 | hasMore holds exactly when the page that starts at offset + limit is non-empty. Without hasMore, a page that starts inside the list is exactly the rest of the list from its offset. |
| PasteService.EveryPasteOnce | internal/services/paste_service.go:69-96 | Reading the pages from offset 0 with any limit, until hasMore is false, returns the whole newest-first list of the user's live pastes, and that list holds no paste twice. |
| PasteService.DeletePasteByID | internal/services/paste_service.go:98-120 | Succeeds exactly for the owner of a live paste, and then removes only that row. A non-owner gets a forbidden or expired error and every paste stays. |
| PasteService.ExpiredPasteUndeletable | internal/services/paste_service.go:104-108 | Even the owner cannot delete an expired paste, and the attempt changes nothing. |
| PasteService.FilterPastes | internal/services/paste_service.go:122-145 | Each error (no filter, no identity, the Nil user) occurs exactly in its own case. A success is exactly the repository's filtered list for the caller, so it holds only the caller's live pastes. |
| PasteService.GetPasteBySlug | internal/services/paste_service.go:147-171 | No identity and the Nil user are rejected. A success is public or the caller's own; a failure changes nothing. |
| PasteService.SlugPrivacyCheckNeverFires | internal/services/paste_service.go:166-169 | For a non-Nil caller the service's slug read equals the repository's: its privacy check never fires. |
| Jwt.Unix | internal/auth/jwt.go:44-45 | Whole seconds of a nanosecond instant, rounded down. |
| Jwt.IssuedClaims | internal/auth/jwt.go:40-46 | The claims carry the user id and email, issued-at = now, and expiry = now + duration, both in Unix seconds. |
| Jwt.GenerateToken | internal/auth/jwt.go:38-70 | The token is three dot-separated parts. They are the encoded header, the encoded claims (which decode back to the marshalled claims) and the signature of the first two. |
| Jwt.VerifyToken | internal/auth/jwt.go:73-104 | The checks run in order: three parts, signature, claims decoding, claims parsing, then expiry. Each error arises if and only if its check is the first to fail, and a success arises if and only if every check passes. A success returns the decoded claims. |
| Jwt.SignatureCheckedFirst | internal/auth/jwt.go:80-88 | A token with a wrong signature is rejected as such whatever its claims segment holds. |
| Jwt.ExpiryBoundary | internal/auth/jwt.go:99-101 | A token is accepted exactly while the current Unix second does not exceed the expiry. |
| Jwt.TokenParts | internal/auth/jwt.go:69-74 | Joining three dot-free parts with dots and splitting again gives back the three parts. |
| Jwt.GenerateVerify | internal/auth/jwt.go:38-104 | A generated token verifies, before expiry, to exactly the claims it was issued with. |
| Jwt.GeneratedTokenExpires | internal/auth/jwt.go:99-101 | A generated token is rejected as expired once its expiry second has passed. |
| Text.SplitJoin | internal/auth/jwt.go:74 | strings.Split inverts joining parts that do not contain the separator. |
| AuthMiddleware.ExtractToken | internal/auth/auth_middleware.go:48-61 | Each header error (missing, not Bearer, empty token) occurs exactly in its own case. The token is the non-empty rest after "Bearer ". |
| AuthMiddleware.ExtractTokenExactly | internal/auth/auth_middleware.go:52-60 | A header yields a given token exactly when it is "Bearer " followed by that non-empty token. |
| AuthMiddleware.GetUserIDFromContext | internal/auth/auth_middleware.go:65-86 | Each failure (nil context, missing value, wrong type, unparsable string) occurs exactly in its own case. A uuid value is returned as is; a string is returned parsed. |
| AuthMiddleware.GetUserEmailFromContext | internal/auth/auth_middleware.go:89-102 | Succeeds exactly when the context holds a string email, and returns it. The other failures each occur exactly in their own case. |
| AuthMiddleware.Authenticate | internal/auth/auth_middleware.go:23-45 | A request passes exactly when its header yields a token that verifies. The context then holds the claims' user id and email. |
| AuthMiddleware.AuthenticatedIdentity | internal/auth/auth_middleware.go:36-40 | A bearer header with a freshly generated token passes. The context lookups then give back the user id and email it was issued for. |
| BuildSets.Emitted | pkg/utils/utils.go:28-47 | Only fields that emit (non-nil pointer, usable db tag) produce a clause, and there are no more clauses than fields. When every field qualifies, all of them do. |
| BuildSets.EmittedMembers | pkg/utils/utils.go:28-47 | Every clause comes from one of the fields, and a field produces a clause if and only if it emits. |
| BuildSets.EmittedInOrder | pkg/utils/utils.go:28-47 | Fields are emitted in declaration order: the emitted fields of a concatenation are the concatenation of the emitted fields. |
| BuildSets.BuildSets | pkg/utils/utils.go:12-49 | A non-struct gives no clauses and index 0. Otherwise there is one "column = $k" clause per emitted field, k counting from 1, with its value alongside; the returned index is one past the last placeholder. |
| BuildSets.PlaceholdersConsecutive | pkg/utils/utils.go:41 | The k-th clause starts with its field's column and ends with the placeholder $(k+1). |
| Text.NatToStringRoundTrip | pkg/utils/utils.go:41 | The decimal text of a placeholder number reads back as that number, so distinct placeholders have distinct text. |
| Text.ByteLen | internal/handlers/auth.go:49 | Go's len counts UTF-8 bytes. It equals the character count exactly when every character is ASCII. |
| AuthHandlers.ValidateCredentials | internal/handlers/auth.go:52-60 | Missing email, email without "@", and a password under 6 bytes each occur exactly in their own case, checked in that order. |
| AuthHandlers.ValidateRegister | internal/handlers/auth.go:46-60 | Missing name and a name under 2 bytes come first, each exactly in its own case. Registration input is valid exactly when the name has 2 bytes, the email has "@" and the password has 6 bytes. |
| AuthHandlers.ValidateLogin | internal/handlers/auth.go:89-97 | Login input is valid exactly when the email has "@" and the password has at least 6 bytes. |
| AuthHandlers.RegisteredCredentialsLogIn | internal/handlers/auth.go:89-97 | Credentials accepted at registration are accepted at login. |
| AuthHandlers.WideSingleCharacterNameAccepted | internal/handlers/auth.go:49 | A one-character name outside ASCII passes the two-byte minimum. |
| AuthHandlers.RegisterStatus | internal/handlers/auth.go:46-67 | Invalid input is 400 exactly. Valid input is 201 when the service succeeds and 500 when it fails. |
| AuthHandlers.LoginStatus | internal/handlers/auth.go:89-104 | Invalid input is 400 exactly. Valid input is 200 when the service succeeds and 401 when it fails. |
| AuthHandlers.InvalidRegisterSkipsService | internal/handlers/auth.go:46-63 | Invalid registration input gets 400 whatever the service would do. |
| PasteHandlers.QueryInt | internal/handlers/pastes.go:124-131 | An absent parameter gives the default. A present one is accepted exactly when it parses to a value at or above the minimum, and that value is used. |
| PasteHandlers.ParsePagination | internal/handlers/pastes.go:124-140 | An invalid limit (unparsable or below 1) and then an invalid offset (unparsable or negative) are rejected, each exactly in its own case. Accepted values are the parsed ones or the defaults 10 and 0. |
| PasteHandlers.HandlerThenServiceClamp | internal/handlers/pastes.go:124-142 | For parameters the handler accepts, the service keeps the offset and only lowers the limit, to 100. |
| PasteHandlers.ReaderIdentity | internal/handlers/pastes.go:172-177 | A reader counts as authenticated exactly when the identity lookup succeeded, and is otherwise the zero id. |
| PasteHandlers.GetPasteByID | internal/handlers/pastes.go:162-184 | The read succeeds exactly for a live paste. An anonymous or non-owner reader adds one view; the owner changes nothing. |
| PasteHandlers.AnonymousReadAlwaysCounts | internal/handlers/pastes.go:172-179 | An anonymous reader counts a view even on a paste stored under the zero user id. |
| PasteHandlers.ApplyExpiresIn | internal/handlers/pastes.go:47-55 | An empty expires_in leaves the input alone. An unparsable one is rejected exactly. Otherwise the paste expires that duration after now. |
| PasteHandlers.ExpiresInBoundsLifetime | internal/handlers/pastes.go:53-54 | A positive duration gives a paste that is readable right after creation and expired once the duration has passed. |

## Left out

- Storage: pgx, the SQL text, transactions, connection, query, commit and scan failures. Each repository call is one atomic map update, and storage errors are not modelled.
- Row mapping: `pgx.RowToStructByName` fails when the selected columns and the struct's fields differ, and several reads differ as written. The list and filter queries select column subsets. Every analytics read (`SELECT *` or `SELECT a.*` at internal/repositories/analytics_repository.go:43, 88, 116, 141, 155) returns `created_at` and `updated_at`, which the four-field `models.Analytics` lacks. `CreatePaste`'s re-read at internal/repositories/paste_repository.go:70-76 selects no `views` column and selects timestamps `PasteOutput` lacks, so it fails after the insert has committed. The model returns the rows these queries intend: full outputs, analytics rows as stored, and the created paste with 0 views.
- Timestamps on pastes: the model's `PasteInput` and `PasteOutput` carry `expiresAt`, `createdAt` and `updatedAt`, which the Go structs in internal/models/paste.go do not declare; the repository reads and filters on these columns.
- `CreatePaste`'s re-read of the new row by url with `CollectExactlyOneRow` is not modelled separately. Urls are assumed unique, so a colliding insert fails instead.
- `LIKE` wildcards in a slug: the slug pattern is read literally as a url suffix.
- Ties in ORDER BY: rows with equal sort keys come in the model's one fixed order. PostgreSQL leaves their order unspecified, so `PasteService.EveryPasteOnce` and `AnalyticsService.EveryRowOnce` assume that successive page queries order ties the same way.
- The `url` of a ledger row created by the read path's upsert: the upsert names only the paste id and views, so the row's url is the column default. `PasteRepository.IncrementViewCount` writes the empty string for it.
- Views of a freshly created ledger row: the upsert on the read path inserts 1 view, while `CreateAnalytics` inserts the column default, taken as 0.
- Two names for the ledger key: the read path uses the `"pasteID"` column and the analytics queries use `paste_id`. Both are modelled as the same single key of `Db.ledger`.
- Opaque primitives passed in as parameters: `utils.HashPassword` (bcrypt), `uuid.New`, `uuid.Parse`, `os.Getenv("BASE_URL")`, `strconv.Atoi`, `time.ParseDuration`, `json.Marshal`/`json.Unmarshal`, base64url and HMAC-SHA256. `Jwt.WellBehaved` states only what the token round trip needs of them.
- `utils.StructToMap` is not part of this model. `PasteRepository.UpdatePaste` applies the fields a `PatchPaste` carries directly.
- `json.Marshal` of the JWT header and claims cannot fail for these types, so its error path is not modelled.
- Title collation: `ORDER BY p.title` uses the database collation, modelled as code-point order.
- Logging (`zerolog`, `fmt.Printf`) and concurrency. The upsert is treated as atomic, which is what `ON CONFLICT` provides.
- HTTP plumbing: `c.Bind` decoding failures, path-parameter parsing, response envelopes, Swagger comments, and the handlers that only forward to a service (`DeletePasteByID`, `GetPublicPaste`, `GetRawPaste`, `FilterPastes`, `UpdatePaste`).
- Call-site mismatches: some calls do not match the callee's signature. The service passes a password to the repository's `GetPasteByID` and `GetPasteBySlug`, and the handlers call `GetPasteBySlug` without one. The model follows each callee's declared parameters and drops the unused password.
- Time resolution: instants are integers in nanoseconds. Monotonic clock readings and time zones are not modelled.

## Findings

| source | as written | input that shows it | evidently intended | confidence | as-written member | corrected member |
|---|---|---|---|---|---|---|
| internal/services/paste_service.go:39-57 | `UpdatePaste` checks that the caller is authenticated and that the paste is readable, but never that the caller owns it. | User B sends a patch with a new title for user A's live paste; the patch is applied. | Only the owner may patch a paste, as `DeletePasteByID` enforces at lines 109-112. | not executed | PasteService.StrangerCanUpdate | PasteService.UpdatePasteOwnerChecked |

=== FILE: analytics_repository.dfy ===
/**
 * The view ledger as the analytics repository sees it
 * (internal/repositories/analytics_repository.go): one row per paste id in
 * Models.Db.ledger, read and written as whole-map updates.
 */
module AnalyticsRepository {
  import opened Wrappers
  import opened Ordering
  import opened Models
  import PasteRepository

  /** The value the views column takes when an insert does not name it. */
  const DefaultViews: int := 0

  /** A ledger row in the shape the repository returns it. */
  function AnalyticsOf(pasteId: Uuid, rec: ViewRecord): Analytics {
    Analytics(rec.id, pasteId, rec.url, rec.views)
  }

  /**
   * CreateAnalytics: inserts a row for the paste with the given url; a second
   * row for the same paste id violates the ledger's unique key.
   */
  function CreateAnalytics(db: Db, pasteId: Uuid, url: string, newRowId: Uuid, now: Instant): (o: Outcome<()>)
    ensures pasteId in db.ledger ==> o == Outcome(db, Err(DuplicateLedgerRow))
    ensures pasteId !in db.ledger ==>
              && o.result.Ok?
              && o.db.pastes == db.pastes
              && o.db.ledger.Keys == db.ledger.Keys + {pasteId}
              && o.db.ledger[pasteId] == ViewRecord(newRowId, url, DefaultViews, now, now)
              && forall k :: k in db.ledger ==> o.db.ledger[k] == db.ledger[k]
  {
    if pasteId in db.ledger then Outcome(db, Err(DuplicateLedgerRow))
    else Outcome(db.(ledger := db.ledger[pasteId := ViewRecord(newRowId, url, DefaultViews, now, now)]), Ok(()))
  }

  /** GetAnalyticsByPasteID: the paste's row, or none (not an error) when it has none. */
  function GetAnalyticsByPasteID(db: Db, pasteId: Uuid): (r: Option<Analytics>)
    ensures r.None? <==> pasteId !in db.ledger
    ensures r.Some? ==> r.value.pasteId == pasteId && r.value.views == ViewsOf(db.ledger, pasteId)
                        && r.value.id == db.ledger[pasteId].id && r.value.url == db.ledger[pasteId].url
  {
    if pasteId in db.ledger then Some(AnalyticsOf(pasteId, db.ledger[pasteId])) else None
  }

  /**
   * IncrementViews: UPDATE ... SET views = views + 1 WHERE paste_id = $1.
   * Without a row nothing changes and no error is reported.
   */
  function IncrementViews(db: Db, pasteId: Uuid): (o: Outcome<()>)
    ensures o.result.Ok? && o.db.pastes == db.pastes
    ensures o.db.ledger.Keys == db.ledger.Keys
    ensures pasteId !in db.ledger ==> o.db == db
    ensures pasteId in db.ledger ==> ViewsOf(o.db.ledger, pasteId) == ViewsOf(db.ledger, pasteId) + 1
                                     && o.db.ledger[pasteId].updatedAt == db.ledger[pasteId].updatedAt
    ensures forall k :: k in db.ledger && k != pasteId ==> o.db.ledger[k] == db.ledger[k]
  {
    if pasteId !in db.ledger then Outcome(db, Ok(()))
    else
      var rec := db.ledger[pasteId];
      Outcome(db.(ledger := db.ledger[pasteId := rec.(views := rec.views + 1)]), Ok(()))
  }

  /** A freshly created row reads back with the paste's url and no views. */
  lemma CreateThenGet(db: Db, pasteId: Uuid, url: string, newRowId: Uuid, now: Instant)
    requires pasteId !in db.ledger
    ensures GetAnalyticsByPasteID(CreateAnalytics(db, pasteId, url, newRowId, now).db, pasteId)
            == Some(Analytics(newRowId, pasteId, url, 0))
  {
  }

  /**
   * The two increments of the code base: on an existing row both add one view
   * (only the paste repository's upsert also refreshes updated_at); without a
   * row only the upsert counts.
   */
  lemma IncrementsAgree(db: Db, pasteId: Uuid, newRowId: Uuid, now: Instant)
    ensures var a := IncrementViews(db, pasteId).db.ledger;
            var b := PasteRepository.IncrementViewCount(db.ledger, pasteId, newRowId, now);
            && (pasteId in db.ledger ==> a.Keys == b.Keys && forall k :: k in a ==> ViewsOf(a, k) == ViewsOf(b, k))
            && (pasteId !in db.ledger ==> ViewsOf(a, pasteId) == 0 && ViewsOf(b, pasteId) == 1)
  {
  }

  /** The paste ids of the ledger rows that carry the url, in enumeration order. */
  function UrlMatches(ledger: map<Uuid, ViewRecord>, url: string): (ids: seq<Uuid>)
    ensures forall id :: id in ids <==> id in ledger && ledger[id].url == url
  {
    IdsWhere(ledger.Keys, (id: nat) => id in ledger && ledger[id].url == url)
  }

  /**
   * GetAnalyticsByURL: the first row carrying the url, or none (not an error)
   * when no row carries it. Urls are not unique, so "first" is the order the
   * rows come back in.
   */
  function GetAnalyticsByURL(db: Db, url: string): (r: Option<Analytics>)
    ensures r.None? <==> forall id :: id in db.ledger ==> db.ledger[id].url != url
    ensures r.Some? ==> r.value.url == url && r.value.pasteId in db.ledger
                        && r.value == AnalyticsOf(r.value.pasteId, db.ledger[r.value.pasteId])
  {
    var ids := UrlMatches(db.ledger, url);
    if |ids| == 0 then None
    else
      assert ids[0] in ids;
      Some(AnalyticsOf(ids[0], db.ledger[ids[0]]))
  }

  /** The selection of GetAnalyticsByID: WHERE id = $1. */
  function HasRowId(ledger: map<Uuid, ViewRecord>, id: Uuid): nat -> bool {
    (k: nat) => k in ledger && ledger[k].id == id
  }

  /** The paste ids whose ledger row has the given row id. */
  ghost function RowsWithId(ledger: map<Uuid, ViewRecord>, id: Uuid): set<Uuid> {
    set k | k in ledger && ledger[k].id == id
  }

  lemma RowsWithIdSelected(ledger: map<Uuid, ViewRecord>, id: Uuid)
    ensures (set x | x in ledger.Keys && HasRowId(ledger, id)(x)) == RowsWithId(ledger, id)
  {
    assert forall x :: x in ledger.Keys && HasRowId(ledger, id)(x) <==> x in RowsWithId(ledger, id);
  }

  /**
   * GetAnalyticsByID: the row whose own id is `id`; no match, or more than
   * one, is an error.
   */
  function GetAnalyticsByID(db: Db, id: Uuid): (r: Result<Analytics, Error>)
    ensures r.Ok? <==> |RowsWithId(db.ledger, id)| == 1
    ensures r.Ok? ==> r.value.id == id && r.value.pasteId in db.ledger
                      && r.value == AnalyticsOf(r.value.pasteId, db.ledger[r.value.pasteId])
    ensures r.Err? ==> r.error == NotFound
  {
    var ids := IdsWhere(db.ledger.Keys, HasRowId(db.ledger, id));
    RowsWithIdSelected(db.ledger, id);
    if |ids| != 1 then Err(NotFound)
    else
      assert ids[0] in ids;
      Ok(AnalyticsOf(ids[0], db.ledger[ids[0]]))
  }

  /** Two rows sharing one id make GetAnalyticsByID fail even though the id exists. */
  lemma DuplicateRowIdsRejected(db: Db, id: Uuid, p: Uuid, q: Uuid)
    requires p != q && p in db.ledger && q in db.ledger
    requires db.ledger[p].id == id && db.ledger[q].id == id
    ensures GetAnalyticsByID(db, id).Err?
  {
    var rows := RowsWithId(db.ledger, id);
    assert {p, q} <= rows;
    assert |{p, q}| == 2;
    SubsetCardinality({p, q}, rows);
  }

  lemma SubsetCardinality<T>(a: set<T>, b: set<T>)
    requires a <= b
    ensures |a| <= |b|
  {
    assert b == a + (b - a);
  }

  /** The ORDER BY columns of the ledger listings. */
  datatype LedgerColumn = CreatedAtColumn | UpdatedAtColumn | ViewsColumn

  /** The allow-list: "created_at", "updated_at" and "views"; anything else falls back to created_at. */
  function LedgerColumnOf(order: string): (c: LedgerColumn)
    ensures order == "updated_at" <==> c == UpdatedAtColumn
    ensures order == "views" <==> c == ViewsColumn
    ensures order !in {"updated_at", "views"} <==> c == CreatedAtColumn
  {
    match order
    case "created_at" => CreatedAtColumn
    case "updated_at" => UpdatedAtColumn
    case "views" => ViewsColumn
    case _ => CreatedAtColumn
  }

  function LedgerColumnName(c: LedgerColumn): string {
    match c
    case CreatedAtColumn => "created_at"
    case UpdatedAtColumn => "updated_at"
    case ViewsColumn => "views"
  }

  /** The ORDER BY text of GetAllAnalytics (prefix "") and GetAllAnalyticsByUser (prefix "a."); always DESC. */
  function LedgerOrderClause(prefix: string, order: string): (clause: string)
    ensures clause in LedgerClauses(prefix)
  {
    LedgerClauseAllowed(prefix, LedgerColumnOf(order));
    prefix + LedgerColumnName(LedgerColumnOf(order)) + " DESC"
  }

  /** Every ORDER BY text the ledger listings can produce: none contains caller text. */
  function LedgerClauses(prefix: string): set<string> {
    {prefix + "created_at DESC", prefix + "updated_at DESC", prefix + "views DESC"}
  }

  lemma LedgerClauseAllowed(prefix: string, c: LedgerColumn)
    ensures prefix + LedgerColumnName(c) + " DESC" in LedgerClauses(prefix)
  {
    match c
    case CreatedAtColumn =>
      assert LedgerColumnName(c) + " DESC" == "created_at DESC";
      assert prefix + LedgerColumnName(c) + " DESC" == prefix + "created_at DESC";
    case UpdatedAtColumn =>
      assert LedgerColumnName(c) + " DESC" == "updated_at DESC";
      assert prefix + LedgerColumnName(c) + " DESC" == prefix + "updated_at DESC";
    case ViewsColumn =>
      assert LedgerColumnName(c) + " DESC" == "views DESC";
      assert prefix + LedgerColumnName(c) + " DESC" == prefix + "views DESC";
  }

  /** An order outside the allow-list gives the default created_at DESC. */
  lemma UnknownLedgerOrderFallsBack(prefix: string, order: string)
    requires order !in {"created_at", "updated_at", "views"}
    ensures LedgerOrderClause(prefix, order) == prefix + "created_at DESC"
  {
    assert LedgerColumnName(LedgerColumnOf(order)) == "created_at";
  }

  /** A ledger row with the paste id it belongs to. */
  datatype Entry = Entry(pasteId: Uuid, rec: ViewRecord)

  /** The value of an ORDER BY column in a ledger row. */
  function ColumnValue(rec: ViewRecord, c: LedgerColumn): int {
    match c
    case CreatedAtColumn => rec.createdAt
    case UpdatedAtColumn => rec.updatedAt
    case ViewsColumn => rec.views
  }

  function EntryKey(c: LedgerColumn): Entry -> Key {
    (e: Entry) => IntKey(ColumnValue(e.rec, c))
  }

  /** Rows listed in descending order of the column's value in the ledger. */
  ghost predicate Descending(ledger: map<Uuid, ViewRecord>, c: LedgerColumn, r: seq<Analytics>) {
    forall i, j :: 0 <= i < j < |r| && r[i].pasteId in ledger && r[j].pasteId in ledger ==>
      ColumnValue(ledger[r[i].pasteId], c) >= ColumnValue(ledger[r[j].pasteId], c)
  }

  function EntriesOf(ledger: map<Uuid, ViewRecord>, ids: seq<Uuid>): (es: seq<Entry>)
    requires forall id :: id in ids ==> id in ledger
    ensures |es| == |ids|
    ensures forall i :: 0 <= i < |ids| ==> es[i] == Entry(ids[i], ledger[ids[i]])
  {
    seq(|ids|, i requires 0 <= i < |ids| => assert ids[i] in ids; Entry(ids[i], ledger[ids[i]]))
  }

  function ToAnalytics(es: seq<Entry>): (r: seq<Analytics>)
    ensures |r| == |es|
    ensures forall i :: 0 <= i < |es| ==> r[i] == AnalyticsOf(es[i].pasteId, es[i].rec)
  {
    seq(|es|, i requires 0 <= i < |es| => AnalyticsOf(es[i].pasteId, es[i].rec))
  }

  /** SELECT ... WHERE keep ORDER BY c DESC over the ledger: every selected row once, sorted. */
  function SortedEntries(ledger: map<Uuid, ViewRecord>, keep: nat -> bool, c: LedgerColumn): (es: seq<Entry>)
    ensures |es| == |set x | x in ledger.Keys && keep(x)|
    ensures forall e :: e in es ==> e.pasteId in ledger && keep(e.pasteId) && e.rec == ledger[e.pasteId]
    ensures forall id :: id in ledger && keep(id) ==> Entry(id, ledger[id]) in es
    ensures Distinct(es)
    ensures Sorted(es, EntryKey(c), Desc)
  {
    var ids := IdsWhere(ledger.Keys, keep);
    var sorted := SortBy(EntriesOf(ledger, ids), EntryKey(c), Desc);
    EntriesSound(ledger, ids, keep, sorted);
    EntriesComplete(ledger, ids, keep, sorted);
    EntriesDistinct(ledger, ids);
    PermutationDistinct(sorted, EntriesOf(ledger, ids));
    sorted
  }

  lemma EntriesComplete(ledger: map<Uuid, ViewRecord>, ids: seq<Uuid>, keep: nat -> bool, rows: seq<Entry>)
    requires forall id :: id in ids <==> id in ledger.Keys && keep(id)
    requires multiset(rows) == multiset(EntriesOf(ledger, ids))
    ensures forall id :: id in ledger && keep(id) ==> Entry(id, ledger[id]) in rows
  {
    forall id | id in ledger && keep(id)
      ensures Entry(id, ledger[id]) in rows
    {
      var i :| 0 <= i < |ids| && ids[i] == id;
      assert EntriesOf(ledger, ids)[i] in multiset(EntriesOf(ledger, ids));
    }
  }

  lemma EntriesDistinct(ledger: map<Uuid, ViewRecord>, ids: seq<Uuid>)
    requires forall id :: id in ids ==> id in ledger
    requires Distinct(ids)
    ensures Distinct(EntriesOf(ledger, ids))
  {
    var es := EntriesOf(ledger, ids);
    forall i, j | 0 <= i < j < |es|
      ensures es[i] != es[j]
    {
      assert es[i].pasteId == ids[i] && es[j].pasteId == ids[j];
    }
  }

  /**
   * The whole result of SELECT ... WHERE keep ORDER BY c DESC: every selected
   * ledger row exactly once, as stored, in descending order of the column.
   */
  function SelectedRows(ledger: map<Uuid, ViewRecord>, keep: nat -> bool, c: LedgerColumn): (rows: seq<Analytics>)
    ensures forall a :: a in rows <==> a.pasteId in ledger && keep(a.pasteId) && a == AnalyticsOf(a.pasteId, ledger[a.pasteId])
    ensures forall i, j :: 0 <= i < j < |rows| ==> rows[i].pasteId != rows[j].pasteId
    ensures |rows| == |set x | x in ledger.Keys && keep(x)|
    ensures Descending(ledger, c, rows)
  {
    var sorted := SortedEntries(ledger, keep, c);
    var rows := ToAnalytics(sorted);
    PageDescending(ledger, c, sorted, rows);
    RowsOfEntries(ledger, keep, sorted, rows);
    rows
  }

  lemma RowsOfEntries(ledger: map<Uuid, ViewRecord>, keep: nat -> bool, es: seq<Entry>, rows: seq<Analytics>)
    requires forall e :: e in es ==> e.pasteId in ledger && keep(e.pasteId) && e.rec == ledger[e.pasteId]
    requires forall id :: id in ledger && keep(id) ==> Entry(id, ledger[id]) in es
    requires Distinct(es)
    requires rows == ToAnalytics(es)
    ensures forall a :: a in rows <==> a.pasteId in ledger && keep(a.pasteId) && a == AnalyticsOf(a.pasteId, ledger[a.pasteId])
    ensures forall i, j :: 0 <= i < j < |rows| ==> rows[i].pasteId != rows[j].pasteId
  {
    PageSound(ledger, keep, es, rows);
    forall a: Analytics | a.pasteId in ledger && keep(a.pasteId) && a == AnalyticsOf(a.pasteId, ledger[a.pasteId])
      ensures a in rows
    {
      var i :| 0 <= i < |es| && es[i] == Entry(a.pasteId, ledger[a.pasteId]);
      assert rows[i] == a;
    }
    forall i, j | 0 <= i < j < |rows|
      ensures rows[i].pasteId != rows[j].pasteId
    {
      assert es[i] in es && es[j] in es;
      assert es[i] != es[j];
    }
  }

  /** One page of the selected ledger rows, sorted descending on the allow-listed column. */
  function LedgerPage(db: Db, keep: nat -> bool, order: string, limit: nat, offset: nat): (r: seq<Analytics>)
    ensures r == Page(SelectedRows(db.ledger, keep, LedgerColumnOf(order)), limit, offset)
    ensures var n := |set x | x in db.ledger.Keys && keep(x)|;
            |r| == PageLength(n, limit, offset)
    ensures forall a :: a in r ==> a.pasteId in db.ledger && keep(a.pasteId)
                                   && a == AnalyticsOf(a.pasteId, db.ledger[a.pasteId])
    ensures forall i, j :: 0 <= i < j < |r| ==> r[i].pasteId != r[j].pasteId
    ensures Descending(db.ledger, LedgerColumnOf(order), r)
  {
    var rows := SelectedRows(db.ledger, keep, LedgerColumnOf(order));
    var r := Page(rows, limit, offset);
    PageOfRows(db.ledger, keep, LedgerColumnOf(order), rows, r, limit, offset);
    r
  }

  lemma PageOfRows(ledger: map<Uuid, ViewRecord>, keep: nat -> bool, c: LedgerColumn, rows: seq<Analytics>,
                   r: seq<Analytics>, limit: nat, offset: nat)
    requires forall a :: a in rows ==> a.pasteId in ledger && keep(a.pasteId) && a == AnalyticsOf(a.pasteId, ledger[a.pasteId])
    requires forall i, j :: 0 <= i < j < |rows| ==> rows[i].pasteId != rows[j].pasteId
    requires Descending(ledger, c, rows)
    requires r == Page(rows, limit, offset)
    ensures forall a :: a in r ==> a.pasteId in ledger && keep(a.pasteId) && a == AnalyticsOf(a.pasteId, ledger[a.pasteId])
    ensures forall i, j :: 0 <= i < j < |r| ==> r[i].pasteId != r[j].pasteId
    ensures Descending(ledger, c, r)
  {
    forall a | a in r
      ensures a in rows
    {
      var i :| 0 <= i < |r| && r[i] == a;
      assert rows[offset + i] == a;
    }
    forall i, j | 0 <= i < j < |r|
      ensures r[i].pasteId != r[j].pasteId
    {
      assert r[i] == rows[offset + i] && r[j] == rows[offset + j];
    }
    forall i, j | 0 <= i < j < |r| && r[i].pasteId in ledger && r[j].pasteId in ledger
      ensures ColumnValue(ledger[r[i].pasteId], c) >= ColumnValue(ledger[r[j].pasteId], c)
    {
      assert r[i] == rows[offset + i] && r[j] == rows[offset + j];
    }
  }

  lemma PageSound(ledger: map<Uuid, ViewRecord>, keep: nat -> bool, page: seq<Entry>, r: seq<Analytics>)
    requires forall e :: e in page ==> e.pasteId in ledger && keep(e.pasteId) && e.rec == ledger[e.pasteId]
    requires r == ToAnalytics(page)
    ensures forall a :: a in r ==> a.pasteId in ledger && keep(a.pasteId) && a == AnalyticsOf(a.pasteId, ledger[a.pasteId])
  {
    forall a | a in r
      ensures a.pasteId in ledger && keep(a.pasteId) && a == AnalyticsOf(a.pasteId, ledger[a.pasteId])
    {
      var i :| 0 <= i < |r| && r[i] == a;
      assert page[i] in page;
    }
  }

  lemma PageDescending(ledger: map<Uuid, ViewRecord>, c: LedgerColumn, page: seq<Entry>, r: seq<Analytics>)
    requires Sorted(page, EntryKey(c), Desc)
    requires forall e :: e in page ==> e.pasteId in ledger && e.rec == ledger[e.pasteId]
    requires r == ToAnalytics(page)
    ensures Descending(ledger, c, r)
  {
    forall i, j | 0 <= i < j < |r| && r[i].pasteId in ledger && r[j].pasteId in ledger
      ensures ColumnValue(ledger[r[i].pasteId], c) >= ColumnValue(ledger[r[j].pasteId], c)
    {
      assert page[i] in page && page[j] in page;
      assert Precedes(EntryKey(c)(page[i]), EntryKey(c)(page[j]), Desc);
    }
  }

  lemma EntriesSound(ledger: map<Uuid, ViewRecord>, ids: seq<Uuid>, keep: nat -> bool, rows: seq<Entry>)
    requires forall id :: id in ids <==> id in ledger.Keys && keep(id)
    requires multiset(rows) == multiset(EntriesOf(ledger, ids))
    ensures forall e :: e in rows ==> e.pasteId in ledger && keep(e.pasteId) && e.rec == ledger[e.pasteId]
  {
    forall e | e in rows
      ensures e.pasteId in ledger && keep(e.pasteId) && e.rec == ledger[e.pasteId]
    {
      assert e in multiset(EntriesOf(ledger, ids));
      var i :| 0 <= i < |ids| && EntriesOf(ledger, ids)[i] == e;
      assert ids[i] in ids;
    }
  }

  /** The selection of GetAllAnalytics: no WHERE clause. */
  predicate AnyRow(pasteId: nat) { true }

  lemma AllRowsSelected(s: set<nat>, keep: nat -> bool)
    requires forall x :: keep(x)
    ensures |set x | x in s && keep(x)| == |s|
  {
    assert (set x | x in s && keep(x)) == s;
  }

  /** GetAllAnalytics: a page of the whole ledger, newest (or most viewed, or latest updated) first. */
  function GetAllAnalytics(db: Db, order: string, limit: int, offset: int): (r: Result<seq<Analytics>, Error>)
    ensures r.Err? <==> limit < 0 || offset < 0
    ensures r.Ok? ==> r.value == Page(SelectedRows(db.ledger, AnyRow, LedgerColumnOf(order)), limit, offset)
    ensures r.Ok? ==> forall i, j :: 0 <= i < j < |r.value| ==> r.value[i].pasteId != r.value[j].pasteId
    ensures r.Ok? ==> |r.value| == PageLength(|db.ledger.Keys|, limit, offset)
    ensures r.Ok? ==> forall a :: a in r.value ==> a.pasteId in db.ledger && a == AnalyticsOf(a.pasteId, db.ledger[a.pasteId])
    ensures r.Ok? ==> Descending(db.ledger, LedgerColumnOf(order), r.value)
  {
    if limit < 0 || offset < 0 then Err(NegativePage)
    else
      var page := LedgerPage(db, AnyRow, order, limit, offset);
      AllRowsSelected(db.ledger.Keys, AnyRow);
      Ok(page)
  }

  /** The join of GetAllAnalyticsByUser: the ledger row's paste belongs to the user. */
  predicate OwnedBy(pastes: map<Uuid, Paste>, userId: Uuid, pasteId: Uuid) {
    pasteId in pastes && pastes[pasteId].userId == userId
  }

  function OwnedByUser(pastes: map<Uuid, Paste>, userId: Uuid): nat -> bool {
    (k: nat) => OwnedBy(pastes, userId, k)
  }

  /** The paste ids of the ledger rows that belong to the user's pastes. */
  ghost function UserRows(db: Db, userId: Uuid): set<Uuid> {
    set k | k in db.ledger && OwnedBy(db.pastes, userId, k)
  }

  lemma UserRowsSelected(db: Db, userId: Uuid)
    ensures (set x | x in db.ledger.Keys && OwnedByUser(db.pastes, userId)(x)) == UserRows(db, userId)
  {
    assert forall x :: x in db.ledger.Keys && OwnedByUser(db.pastes, userId)(x) <==> x in UserRows(db, userId);
  }

  lemma OwnedRows(db: Db, userId: Uuid, r: seq<Analytics>)
    requires forall a :: a in r ==> a.pasteId in db.ledger && OwnedByUser(db.pastes, userId)(a.pasteId)
                                    && a == AnalyticsOf(a.pasteId, db.ledger[a.pasteId])
    ensures forall a :: a in r ==> OwnedBy(db.pastes, userId, a.pasteId) && a.pasteId in db.ledger
                                   && a == AnalyticsOf(a.pasteId, db.ledger[a.pasteId])
  {
  }

  /** GetAllAnalyticsByUser: a page of the ledger rows of the user's pastes only. */
  function GetAllAnalyticsByUser(db: Db, userId: Uuid, order: string, limit: int, offset: int)
    : (r: Result<seq<Analytics>, Error>)
    ensures r.Err? <==> limit < 0 || offset < 0
    ensures r.Ok? ==> r.value == Page(SelectedRows(db.ledger, OwnedByUser(db.pastes, userId), LedgerColumnOf(order)), limit, offset)
    ensures r.Ok? ==> forall i, j :: 0 <= i < j < |r.value| ==> r.value[i].pasteId != r.value[j].pasteId
    ensures r.Ok? ==> var n := |UserRows(db, userId)|;
                      |r.value| == PageLength(n, limit, offset)
    ensures r.Ok? ==> forall a :: a in r.value ==>
              OwnedBy(db.pastes, userId, a.pasteId) && a.pasteId in db.ledger
              && a == AnalyticsOf(a.pasteId, db.ledger[a.pasteId])
    ensures r.Ok? ==> Descending(db.ledger, LedgerColumnOf(order), r.value)
  {
    if limit < 0 || offset < 0 then Err(NegativePage)
    else
      var page := LedgerPage(db, OwnedByUser(db.pastes, userId), order, limit, offset);
      UserRowsSelected(db, userId);
      OwnedRows(db, userId, page);
      Ok(page)
  }
}

=== FILE: analytics_service.dfy ===
/**
 * internal/services/analytics_service.go: argument checks and defaults in
 * front of the analytics repository, and the create-if-absent rule that makes
 * creating a ledger row idempotent.
 */
module AnalyticsService {
  import opened Wrappers
  import opened Ordering
  import opened Models
  import Repo = AnalyticsRepository

  /**
   * CreateAnalytics: a Nil paste id and an empty url are refused; a paste
   * that already has a row is left alone and the call still succeeds.
   */
  function CreateAnalytics(db: Db, pasteId: Uuid, url: string, newRowId: Uuid, now: Instant): (o: Outcome<()>)
    ensures pasteId == NilUuid <==> o == Outcome(db, Err(NilId))
    ensures pasteId != NilUuid && url == "" <==> o == Outcome(db, Err(EmptyUrl))
    ensures o.result.Ok? <==> pasteId != NilUuid && url != ""
    ensures o.result.Ok? && pasteId in db.ledger ==> o.db == db
    ensures o.result.Ok? && pasteId !in db.ledger ==>
              && o.db.pastes == db.pastes
              && o.db.ledger == db.ledger[pasteId := ViewRecord(newRowId, url, Repo.DefaultViews, now, now)]
    ensures o.result.Err? ==> o.db == db
  {
    if pasteId == NilUuid then Outcome(db, Err(NilId))
    else if url == "" then Outcome(db, Err(EmptyUrl))
    else match Repo.GetAnalyticsByPasteID(db, pasteId)
      case Some(_) => Outcome(db, Ok(()))
      case None => Repo.CreateAnalytics(db, pasteId, url, newRowId, now)
  }

  /** Creating twice is creating once, whatever row id and time the second call brings. */
  lemma CreateAnalyticsIdempotent(db: Db, pasteId: Uuid, url: string, newRowId: Uuid, now: Instant,
                                  newRowId2: Uuid, now2: Instant)
    ensures var once := CreateAnalytics(db, pasteId, url, newRowId, now);
            var twice := CreateAnalytics(once.db, pasteId, url, newRowId2, now2);
            twice == once.(result := twice.result) && twice.result.Ok? == once.result.Ok?
  {
  }

  /** GetAnalyticsByPasteID: a Nil id is refused; otherwise the row, or none. */
  function GetAnalyticsByPasteID(db: Db, pasteId: Uuid): (r: Result<Option<Analytics>, Error>)
    ensures pasteId == NilUuid <==> r == Err(NilId)
    ensures r.Ok? ==> (r.value.None? <==> pasteId !in db.ledger)
    ensures r.Ok? && r.value.Some? ==> r.value.value.pasteId == pasteId && r.value.value.views == ViewsOf(db.ledger, pasteId)
  {
    if pasteId == NilUuid then Err(NilId) else Ok(Repo.GetAnalyticsByPasteID(db, pasteId))
  }

  /** GetAnalyticsByID: a Nil id is refused before the lookup. */
  function GetAnalyticsByID(db: Db, id: Uuid): (r: Result<Analytics, Error>)
    ensures id == NilUuid ==> r == Err(NilId)
    ensures r.Ok? <==> id != NilUuid && |Repo.RowsWithId(db.ledger, id)| == 1
    ensures r.Ok? ==> r.value.id == id && r.value.pasteId in db.ledger
  {
    if id == NilUuid then Err(NilId) else Repo.GetAnalyticsByID(db, id)
  }

  /** IncrementViews: a Nil id is refused; otherwise one more view if the paste has a row. */
  function IncrementViews(db: Db, pasteId: Uuid): (o: Outcome<()>)
    ensures pasteId == NilUuid <==> o == Outcome(db, Err(NilId))
    ensures o.result.Err? ==> o.db == db
    ensures pasteId != NilUuid ==> o.result.Ok?
    ensures o.db.pastes == db.pastes && o.db.ledger.Keys == db.ledger.Keys
    ensures o.result.Ok? && pasteId in db.ledger ==> ViewsOf(o.db.ledger, pasteId) == ViewsOf(db.ledger, pasteId) + 1
                                                     && o.db.ledger[pasteId].updatedAt == db.ledger[pasteId].updatedAt
    ensures pasteId !in db.ledger ==> o.db == db
    ensures forall k :: k in db.ledger && k != pasteId ==> o.db.ledger[k] == db.ledger[k]
  {
    if pasteId == NilUuid then Outcome(db, Err(NilId)) else Repo.IncrementViews(db, pasteId)
  }

  /** GetAnalyticsByURL: an empty url is refused, and "no row" becomes an error here. */
  function GetAnalyticsByURL(db: Db, url: string): (r: Result<Analytics, Error>)
    ensures url == "" <==> r == Err(EmptyUrl)
    ensures url != "" ==> (r == Err(AnalyticsNotFound) <==> forall id :: id in db.ledger ==> db.ledger[id].url != url)
    ensures r.Ok? ==> r.value.url == url && r.value.pasteId in db.ledger
  {
    if url == "" then Err(EmptyUrl)
    else match Repo.GetAnalyticsByURL(db, url)
      case None => Err(AnalyticsNotFound)
      case Some(a) => Ok(a)
  }

  const DefaultLimit: int := 10

  /** The order the service substitutes for an empty one; it is not an allow-list key. */
  const DefaultOrder: string := "created_at DESC"

  /** The service's defaults: limit 10 for a non-positive limit, offset 0 for a negative one; no upper bound. */
  function DefaultedLimit(limit: int): (l: int)
    ensures l >= 1
    ensures limit <= 0 ==> l == DefaultLimit
    ensures limit > 0 ==> l == limit
  {
    if limit <= 0 then DefaultLimit else limit
  }

  function DefaultedOffset(offset: int): (k: int)
    ensures k >= 0
    ensures offset >= 0 ==> k == offset
  {
    if offset < 0 then 0 else offset
  }

  function DefaultedOrder(order: string): (s: string)
    ensures order == "" ==> s == DefaultOrder
    ensures order != "" ==> s == order
  {
    if order == "" then DefaultOrder else order
  }

  /** GetAllAnalytics: never refuses; pages through the whole ledger with the defaults applied. */
  function GetAllAnalytics(db: Db, order: string, limit: int, offset: int): (r: Result<seq<Analytics>, Error>)
    ensures r.Ok?
    ensures r.value == Page(Repo.SelectedRows(db.ledger, Repo.AnyRow, Repo.LedgerColumnOf(DefaultedOrder(order))),
                            DefaultedLimit(limit), DefaultedOffset(offset))
    ensures forall i, j :: 0 <= i < j < |r.value| ==> r.value[i].pasteId != r.value[j].pasteId
    ensures var n := |db.ledger.Keys|;
            var l := DefaultedLimit(limit);
            var k := DefaultedOffset(offset);
            |r.value| == PageLength(n, l, k)
    ensures Repo.Descending(db.ledger, Repo.LedgerColumnOf(DefaultedOrder(order)), r.value)
  {
    Repo.GetAllAnalytics(db, DefaultedOrder(order), DefaultedLimit(limit), DefaultedOffset(offset))
  }

  /**
   * The substituted "created_at DESC" is not a column name, so the
   * repository falls back to its own default, which happens to be the same
   * ordering.
   */
  lemma EmptyOrderIsCreatedAt(db: Db, limit: int, offset: int)
    ensures GetAllAnalytics(db, "", limit, offset) == GetAllAnalytics(db, "created_at", limit, offset)
    ensures Repo.LedgerColumnOf(DefaultedOrder("")) == Repo.CreatedAtColumn
  {
    assert Repo.LedgerColumnOf(DefaultOrder) == Repo.LedgerColumnOf("created_at");
  }

  /** GetAllAnalyticsByUser: a Nil user is refused; otherwise that user's rows with the defaults applied. */
  function GetAllAnalyticsByUser(db: Db, userId: Uuid, order: string, limit: int, offset: int)
    : (r: Result<seq<Analytics>, Error>)
    ensures userId == NilUuid <==> r == Err(NilUser)
    ensures r.Ok? <==> userId != NilUuid
    ensures r.Ok? ==> r.value == Page(Repo.SelectedRows(db.ledger, Repo.OwnedByUser(db.pastes, userId),
                                                        Repo.LedgerColumnOf(DefaultedOrder(order))),
                                      DefaultedLimit(limit), DefaultedOffset(offset))
    ensures r.Ok? ==> forall i, j :: 0 <= i < j < |r.value| ==> r.value[i].pasteId != r.value[j].pasteId
    ensures r.Ok? ==> var n := |Repo.UserRows(db, userId)|;
                      var l := DefaultedLimit(limit);
                      var k := DefaultedOffset(offset);
                      |r.value| == PageLength(n, l, k)
    ensures r.Ok? ==> forall a :: a in r.value ==> Repo.OwnedBy(db.pastes, userId, a.pasteId)
    ensures r.Ok? ==> Repo.Descending(db.ledger, Repo.LedgerColumnOf(DefaultedOrder(order)), r.value)
  {
    if userId == NilUuid then Err(NilUser)
    else Repo.GetAllAnalyticsByUser(db, userId, DefaultedOrder(order), DefaultedLimit(limit), DefaultedOffset(offset))
  }

  /**
   * Reading the pages from offset 0 returns every ledger row once, in the
   * order of the chosen column.
   */
  lemma EveryRowOnce(db: Db, order: string, limit: int)
    ensures var rows := Repo.SelectedRows(db.ledger, Repo.AnyRow, Repo.LedgerColumnOf(DefaultedOrder(order)));
            && Walk(rows, DefaultedLimit(limit), 0) == rows
            && (forall a :: a in rows <==> a.pasteId in db.ledger && a == Repo.AnalyticsOf(a.pasteId, db.ledger[a.pasteId]))
  {
    var rows := Repo.SelectedRows(db.ledger, Repo.AnyRow, Repo.LedgerColumnOf(DefaultedOrder(order)));
    WalkCovers(rows, DefaultedLimit(limit), 0);
    assert rows[0..] == rows;
  }
}

=== FILE: auth_handlers.dfy ===
/**
 * The input checks of the register and login handlers
 * (internal/handlers/auth.go). Lengths are Go's len: bytes of the UTF-8
 * encoding, not characters.
 */
module AuthHandlers {
  import opened Wrappers
  import opened Text

  datatype RegisterInput = RegisterInput(name: string, email: string, password: string)
  datatype LoginInput = LoginInput(email: string, password: string)

  datatype ValidationError = NameRequired | NameTooShort | EmailRequired | EmailInvalid | PasswordTooShort

  const MinNameBytes: nat := 2
  const MinPasswordBytes: nat := 6

  /** The email and password checks both handlers share, in the order they run. */
  function ValidateCredentials(email: string, password: string): (r: Option<ValidationError>)
    ensures r == Some(EmailRequired) <==> email == ""
    ensures r == Some(EmailInvalid) <==> email != "" && !ContainsChar(email, '@')
    ensures r == Some(PasswordTooShort) <==> ContainsChar(email, '@') && ByteLen(password) < MinPasswordBytes
    ensures r.None? <==> ContainsChar(email, '@') && ByteLen(password) >= MinPasswordBytes
  {
    if email == "" then Some(EmailRequired)
    else if !ContainsChar(email, '@') then Some(EmailInvalid)
    else if ByteLen(password) < MinPasswordBytes then Some(PasswordTooShort)
    else None
  }

  /** Register's checks: name present, name at least 2 bytes, then the shared ones; the first failure decides. */
  function ValidateRegister(input: RegisterInput): (r: Option<ValidationError>)
    ensures r == Some(NameRequired) <==> input.name == ""
    ensures r == Some(NameTooShort) <==> input.name != "" && ByteLen(input.name) < MinNameBytes
    ensures ByteLen(input.name) >= MinNameBytes ==> r == ValidateCredentials(input.email, input.password)
    ensures r.None? <==> ByteLen(input.name) >= MinNameBytes && ContainsChar(input.email, '@')
                         && ByteLen(input.password) >= MinPasswordBytes
  {
    if input.name == "" then Some(NameRequired)
    else if ByteLen(input.name) < MinNameBytes then Some(NameTooShort)
    else ValidateCredentials(input.email, input.password)
  }

  /** Login's checks: the shared ones only; there is no name. */
  function ValidateLogin(input: LoginInput): (r: Option<ValidationError>)
    ensures r.Some? ==> r.value in {EmailRequired, EmailInvalid, PasswordTooShort}
    ensures r.None? <==> ContainsChar(input.email, '@') && ByteLen(input.password) >= MinPasswordBytes
  {
    ValidateCredentials(input.email, input.password)
  }

  /** Whatever passes registration also passes login with the same email and password. */
  lemma RegisteredCredentialsLogIn(input: RegisterInput)
    requires ValidateRegister(input).None?
    ensures ValidateLogin(LoginInput(input.email, input.password)).None?
  {
  }

  /** A one-character name passes the length check when its character takes two or more bytes. */
  lemma WideSingleCharacterNameAccepted(c: char, email: string, password: string)
    requires (c as int) >= 0x80
    ensures ValidateRegister(RegisterInput([c], email, password)) != Some(NameTooShort)
  {
    assert ByteLen([c]) == Utf8Width(c) + ByteLen([]);
  }

  /** The status Register answers; the service is only consulted once every check passed. */
  function RegisterStatus(input: RegisterInput, serviceOk: RegisterInput -> bool): (status: int)
    ensures ValidateRegister(input).Some? <==> status == 400
    ensures ValidateRegister(input).None? ==> (status == 201 <==> serviceOk(input)) && status in {201, 500}
  {
    if ValidateRegister(input).Some? then 400
    else if serviceOk(input) then 201
    else 500
  }

  /** The status Login answers; a refused login is a 401, after the checks have passed. */
  function LoginStatus(input: LoginInput, serviceOk: LoginInput -> bool): (status: int)
    ensures ValidateLogin(input).Some? <==> status == 400
    ensures ValidateLogin(input).None? ==> (status == 200 <==> serviceOk(input)) && status in {200, 401}
  {
    if ValidateLogin(input).Some? then 400
    else if serviceOk(input) then 200
    else 401
  }

  /** An invalid registration is answered the same whatever the service would have done. */
  lemma InvalidRegisterSkipsService(input: RegisterInput, s1: RegisterInput -> bool, s2: RegisterInput -> bool)
    requires ValidateRegister(input).Some?
    ensures RegisterStatus(input, s1) == RegisterStatus(input, s2) == 400
  {
  }
}

=== FILE: auth_middleware.dfy ===
/**
 * internal/auth/auth_middleware.go: the bearer-token check in front of the
 * protected routes and the typed context lookups the services use to learn
 * who the caller is. A request context is abstracted to the two values the
 * middleware stores, each tagged with its dynamic Go type.
 */
module AuthMiddleware {
  import opened Wrappers
  import opened Text
  import opened Models
  import Jwt

  const BearerPrefix: string := "Bearer "

  datatype TokenError = HeaderMissing | NotBearer | BadHeaderFormat

  /**
   * extractToken: the text after "Bearer ". An empty header, another scheme
   * and an empty token are refused, each with its own error.
   */
  function ExtractToken(header: string): (r: Result<string, TokenError>)
    ensures header == "" <==> r == Err(HeaderMissing)
    ensures header != "" && !HasPrefix(header, BearerPrefix) <==> r == Err(NotBearer)
    ensures header == BearerPrefix <==> r == Err(BadHeaderFormat)
    ensures r.Ok? ==> r.value != "" && BearerPrefix + r.value == header
  {
    if header == "" then Err(HeaderMissing)
    else if !HasPrefix(header, BearerPrefix) then Err(NotBearer)
    else
      var parts := SplitN2(header, ' ');
      BearerParts(header);
      if |parts| != 2 || parts[1] == "" then Err(BadHeaderFormat) else Ok(parts[1])
  }

  /** strings.SplitN(header, " ", 2) on a Bearer header cuts at the space after "Bearer". */
  lemma BearerParts(header: string)
    requires HasPrefix(header, BearerPrefix)
    ensures SplitN2(header, ' ') == ["Bearer", header[|BearerPrefix|..]]
    ensures header == BearerPrefix <==> header[|BearerPrefix|..] == ""
    ensures header == BearerPrefix + header[|BearerPrefix|..]
  {
    var parts := SplitN2(header, ' ');
    assert header[6] == ' ' && ' ' !in header[..6];
    assert |parts| == 2 && parts[0] == "Bearer" && parts[1] == header[7..] by {
      assert header[..|parts[0]|] == parts[0] && header[|parts[0]|] == ' ';
      assert |parts[0]| == 6;
    }
    assert header[..7] == BearerPrefix;
  }

  /** A header is accepted exactly when it is "Bearer " followed by a non-empty token, which is returned. */
  lemma ExtractTokenExactly(header: string, token: string)
    ensures ExtractToken(header) == Ok(token) <==> header == BearerPrefix + token && token != ""
  {
    if header == BearerPrefix + token && token != "" {
      assert HasPrefix(header, BearerPrefix);
      assert header[7..] == token;
    }
  }

  /** The dynamic type and value stored under a context key. */
  datatype CtxValue = Absent | UuidValue(id: Uuid) | StringValue(s: string) | OtherValue

  /** A context.Context, or a nil one, with the values under the userID and userEmail keys. */
  datatype RequestContext = NilContext | Context(userId: CtxValue, email: CtxValue)

  datatype ContextError = ContextNil | IdMissing | IdMalformed | IdWrongType | EmailMissing | EmailWrongType

  /**
   * GetUserIDFromContext: a UUID value as is, a string value through
   * uuid.Parse, and an error for everything else. Go pairs every error with
   * uuid.Nil; here an error carries no id.
   */
  function GetUserIDFromContext(ctx: RequestContext, parseUuid: string -> Option<Uuid>): (r: Result<Uuid, ContextError>)
    ensures ctx.NilContext? <==> r == Err(ContextNil)
    ensures ctx.Context? && ctx.userId.Absent? <==> r == Err(IdMissing)
    ensures ctx.Context? && ctx.userId.OtherValue? <==> r == Err(IdWrongType)
    ensures ctx.Context? && ctx.userId.StringValue? && parseUuid(ctx.userId.s).None? <==> r == Err(IdMalformed)
    ensures r.Ok? <==> ctx.Context? && (ctx.userId.UuidValue? || (ctx.userId.StringValue? && parseUuid(ctx.userId.s).Some?))
    ensures r.Ok? && ctx.userId.UuidValue? ==> r.value == ctx.userId.id
    ensures r.Ok? && ctx.userId.StringValue? ==> Some(r.value) == parseUuid(ctx.userId.s)
  {
    match ctx
    case NilContext => Err(ContextNil)
    case Context(v, _) =>
      match v
      case Absent => Err(IdMissing)
      case UuidValue(id) => Ok(id)
      case StringValue(s) =>
        (match parseUuid(s)
         case None => Err(IdMalformed)
         case Some(id) => Ok(id))
      case OtherValue => Err(IdWrongType)
  }

  /** GetUserEmailFromContext: only a string value is an email; no parsing is attempted. */
  function GetUserEmailFromContext(ctx: RequestContext): (r: Result<string, ContextError>)
    ensures ctx.NilContext? <==> r == Err(ContextNil)
    ensures ctx.Context? && ctx.email.Absent? <==> r == Err(EmailMissing)
    ensures ctx.Context? && (ctx.email.UuidValue? || ctx.email.OtherValue?) <==> r == Err(EmailWrongType)
    ensures r.Ok? <==> ctx.Context? && ctx.email.StringValue?
    ensures r.Ok? ==> r.value == ctx.email.s
  {
    match ctx
    case NilContext => Err(ContextNil)
    case Context(_, v) =>
      match v
      case Absent => Err(EmailMissing)
      case StringValue(s) => Ok(s)
      case UuidValue(_) => Err(EmailWrongType)
      case OtherValue => Err(EmailWrongType)
  }

  datatype AuthError = MissingOrInvalidAuthorization | InvalidToken

  /**
   * AuthMiddleware: a valid bearer token puts its user id (as a UUID) and
   * email (as a string) into the request context; anything else is a 401.
   */
  function Authenticate(header: string, now: Instant, p: Jwt.Primitives): (r: Result<RequestContext, AuthError>)
    ensures ExtractToken(header).Err? <==> r == Err(MissingOrInvalidAuthorization)
    ensures r.Ok? <==> ExtractToken(header).Ok? && Jwt.VerifyToken(ExtractToken(header).value, now, p).Ok?
    ensures r.Ok? ==> var claims := Jwt.VerifyToken(ExtractToken(header).value, now, p).value;
                      r.value == Context(UuidValue(claims.userId), StringValue(claims.email))
  {
    match ExtractToken(header)
    case Err(_) => Err(MissingOrInvalidAuthorization)
    case Ok(token) =>
      match Jwt.VerifyToken(token, now, p)
      case Err(_) => Err(InvalidToken)
      case Ok(claims) => Ok(Context(UuidValue(claims.userId), StringValue(claims.email)))
  }

  /**
   * Behind the middleware the context lookups succeed and return the
   * identity the token was issued for, whatever the string parser does.
   */
  lemma AuthenticatedIdentity(userId: Uuid, email: string, duration: int, issued: Instant, now: Instant,
                              p: Jwt.Primitives, parseUuid: string -> Option<Uuid>)
    requires Jwt.WellBehaved(p)
    requires Jwt.Unix(now) <= Jwt.Unix(issued + duration)
    ensures var header := BearerPrefix + Jwt.GenerateToken(userId, email, duration, issued, p);
            var r := Authenticate(header, now, p);
            && r.Ok?
            && GetUserIDFromContext(r.value, parseUuid) == Ok(userId)
            && GetUserEmailFromContext(r.value) == Ok(email)
  {
    var token := Jwt.GenerateToken(userId, email, duration, issued, p);
    ExtractTokenExactly(BearerPrefix + token, token);
    Jwt.GenerateVerify(userId, email, duration, issued, now, p);
  }
}

=== FILE: build_sets.dfy ===
/**
 * pkg/utils/utils.go BuildSets: the SET clauses and argument list of a
 * dynamic UPDATE, taken from the non-nil pointer fields of a patch struct.
 * Reflection is abstracted: a patch is either not a struct, or a struct seen
 * as its fields in declaration order, each with its `db` tag, whether it is a
 * pointer, and the pointed-to value when the pointer is not nil.
 */
module BuildSets {
  import opened Wrappers
  import opened Text

  datatype Field<V> = Field(tag: string, isPointer: bool, value: Option<V>)

  datatype Patch<V> = NonStruct | Struct(fields: seq<Field<V>>)

  /** A field becomes a SET clause: a usable db tag on a non-nil pointer. */
  predicate Emits<V>(f: Field<V>) {
    f.tag != "" && f.tag != "-" && f.isPointer && f.value.Some?
  }

  /** The fields that become SET clauses, in declaration order. */
  function Emitted<V>(fields: seq<Field<V>>): (e: seq<Field<V>>)
    ensures |e| <= |fields|
    ensures forall i :: 0 <= i < |e| ==> Emits(e[i])
    ensures (forall i :: 0 <= i < |fields| ==> Emits(fields[i])) ==> e == fields
  {
    if |fields| == 0 then []
    else
      var last := fields[|fields| - 1];
      Emitted(fields[..|fields| - 1]) + (if Emits(last) then [last] else [])
  }

  /** A field becomes a SET clause exactly when it emits: nothing else is added and nothing that emits is dropped. */
  lemma {:induction false} EmittedMembers<V>(fields: seq<Field<V>>)
    ensures forall i :: 0 <= i < |Emitted(fields)| ==> Emitted(fields)[i] in fields
    ensures forall i :: 0 <= i < |fields| ==> (fields[i] in Emitted(fields) <==> Emits(fields[i]))
    decreases |fields|
  {
    if |fields| > 0 {
      var front := fields[..|fields| - 1];
      var last := fields[|fields| - 1];
      EmittedMembers(front);
      assert fields == front + [last];
    }
  }

  /** Emission keeps declaration order: the clauses of a prefix come before those of the rest. */
  lemma {:induction false} EmittedInOrder<V>(a: seq<Field<V>>, b: seq<Field<V>>)
    ensures Emitted(a + b) == Emitted(a) + Emitted(b)
    decreases |b|
  {
    if |b| == 0 {
      assert a + b == a;
    } else {
      var ab := a + b;
      var front := b[..|b| - 1];
      var last := b[|b| - 1];
      var tail := if Emits(last) then [last] else [];
      assert ab[..|ab| - 1] == a + front;
      assert ab[|ab| - 1] == last;
      assert Emitted(ab) == Emitted(a + front) + tail;
      assert Emitted(b) == Emitted(front) + tail;
      EmittedInOrder(a, front);
    }
  }

  lemma EmittedStep<V>(fields: seq<Field<V>>, i: nat)
    requires i < |fields|
    ensures Emitted(fields[..i + 1]) == Emitted(fields[..i]) + (if Emits(fields[i]) then [fields[i]] else [])
  {
    assert fields[..i + 1][..i] == fields[..i];
  }

  /** "<column> = $<k>" */
  function SetClause(column: string, k: nat): string {
    column + " = $" + NatToString(k)
  }

  /** The SET clauses of the emitted fields `e`, numbered from $1. */
  function Clauses<V>(e: seq<Field<V>>): (c: seq<string>)
    ensures |c| == |e|
    ensures forall k :: 0 <= k < |e| ==> c[k] == SetClause(e[k].tag, k + 1)
  {
    seq(|e|, k requires 0 <= k < |e| => SetClause(e[k].tag, k + 1))
  }

  /** The argument list of the emitted fields `e`: the pointed-to values. */
  function Values<V>(e: seq<Field<V>>): (vs: seq<V>)
    requires forall k :: 0 <= k < |e| ==> Emits(e[k])
    ensures |vs| == |e|
    ensures forall k :: 0 <= k < |e| ==> Some(vs[k]) == e[k].value
  {
    if |e| == 0 then []
    else
      var last := e[|e| - 1];
      assert Emits(last);
      Values(e[..|e| - 1]) + [last.value.value]
  }

  lemma ClausesSnoc<V>(e: seq<Field<V>>, f: Field<V>)
    ensures Clauses(e + [f]) == Clauses(e) + [SetClause(f.tag, |e| + 1)]
  {
    assert forall k :: 0 <= k < |e| ==> (e + [f])[k] == e[k];
  }

  lemma ValuesSnoc<V>(e: seq<Field<V>>, f: Field<V>)
    requires forall k :: 0 <= k < |e| ==> Emits(e[k])
    requires Emits(f)
    ensures Values(e + [f]) == Values(e) + [f.value.value]
  {
    assert forall k :: 0 <= k < |e| ==> (e + [f])[k] == e[k];
  }

  /**
   * BuildSets: one clause and one value per emitted field, the k-th clause
   * naming placeholder $k, and the next free placeholder number; a non-struct
   * gives nothing and 0.
   */
  method BuildSets<V>(patch: Patch<V>) returns (sets: seq<string>, values: seq<V>, index: int)
    ensures patch.NonStruct? ==> sets == [] && values == [] && index == 0
    ensures patch.Struct? ==>
              var e := Emitted(patch.fields);
              && |sets| == |values| == |e|
              && index == 1 + |e|
              && (forall k :: 0 <= k < |e| ==> sets[k] == SetClause(e[k].tag, k + 1))
              && (forall k :: 0 <= k < |e| ==> Some(values[k]) == e[k].value)
  {
    if patch.NonStruct? {
      return [], [], 0;
    }
    var fields := patch.fields;
    sets, values, index := [], [], 1;
    var i := 0;
    while i < |fields|
      invariant 0 <= i <= |fields|
      invariant sets == Clauses(Emitted(fields[..i]))
      invariant values == Values(Emitted(fields[..i]))
      invariant index == 1 + |Emitted(fields[..i])|
    {
      var f := fields[i];
      ghost var before := Emitted(fields[..i]);
      EmittedStep(fields, i);
      if Emits(f) {
        ClausesSnoc(before, f);
        ValuesSnoc(before, f);
        sets := sets + [SetClause(f.tag, index)];
        values := values + [f.value.value];
        index := index + 1;
      } else {
        assert Emitted(fields[..i + 1]) == before + [];
      }
      i := i + 1;
    }
    assert fields[..i] == fields;
  }

  /** The placeholders run $1, $2, … with no gap, whatever fields are skipped. */
  lemma PlaceholdersConsecutive<V>(fields: seq<Field<V>>, sets: seq<string>, k: nat)
    requires |sets| == |Emitted(fields)|
    requires forall j :: 0 <= j < |sets| ==> sets[j] == SetClause(Emitted(fields)[j].tag, j + 1)
    requires k < |sets|
    ensures HasSuffix(sets[k], " = $" + NatToString(k + 1))
    ensures HasPrefix(sets[k], Emitted(fields)[k].tag)
  {
    var tag := Emitted(fields)[k].tag;
    assert sets[k] == tag + (" = $" + NatToString(k + 1));
  }
}

=== FILE: jwt.dfy ===
/**
 * The hand-rolled HS256 tokens of internal/auth/jwt.go. HMAC-SHA256 with the
 * secret key, base64url without padding and encoding/json are uninterpreted:
 * they are fields of `Primitives`, and the round trip is proved under the
 * properties those library functions are known to have (`WellBehaved`).
 */
module Jwt {
  import opened Wrappers
  import opened Text
  import opened Models

  /** Claims: the user, and the standard exp/iat claims in Unix seconds. */
  datatype Claims = Claims(userId: Uuid, email: string, expiresAt: int, issuedAt: int)

  datatype Primitives = Primitives(
    sign: string -> string,                // base64url(HMAC-SHA256(secret, message))
    encode: string -> string,              // base64.RawURLEncoding.EncodeToString
    decode: string -> Option<string>,      // base64.RawURLEncoding.DecodeString
    marshal: Claims -> string,             // json.Marshal(claims)
    unmarshal: string -> Option<Claims>)   // json.Unmarshal into a Claims value

  /**
   * What the round trip relies on: base64url output never contains '.',
   * decoding inverts encoding, and unmarshalling inverts marshalling.
   */
  ghost predicate WellBehaved(p: Primitives) {
    && (forall s :: '.' !in p.encode(s) && p.decode(p.encode(s)) == Some(s))
    && (forall m :: '.' !in p.sign(m))
    && (forall c :: p.unmarshal(p.marshal(c)) == Some(c))
  }

  /** json.Marshal of the fixed header map; Go sorts map keys. */
  const HeaderJson: string := "{\"alg\":\"HS256\",\"typ\":\"JWT\"}"

  const NanosPerSecond: int := 1_000_000_000

  /** time.Time.Unix: whole seconds, rounded toward negative infinity. */
  function Unix(t: Instant): (secs: int)
    ensures secs * NanosPerSecond <= t < (secs + 1) * NanosPerSecond
  {
    t / NanosPerSecond
  }

  /** The claims GenerateToken issues at `now` for a token valid for `duration` nanoseconds. */
  function IssuedClaims(userId: Uuid, email: string, duration: int, now: Instant): (c: Claims)
    ensures c.userId == userId && c.email == email
    ensures c.issuedAt == Unix(now) && c.expiresAt == Unix(now + duration)
  {
    Claims(userId, email, Unix(now + duration), Unix(now))
  }

  /**
   * The compact serialisation header.claims.signature: three dot-free
   * segments, the last one the signature of the first two joined by '.', the
   * middle one the encoded claims.
   */
  function GenerateToken(userId: Uuid, email: string, duration: int, now: Instant, p: Primitives): (token: string)
    ensures WellBehaved(p) ==>
              var parts := Split(token, '.');
              && |parts| == 3
              && parts[0] == p.encode(HeaderJson)
              && parts[2] == p.sign(parts[0] + "." + parts[1])
              && p.decode(parts[1]) == Some(p.marshal(IssuedClaims(userId, email, duration, now)))
  {
    var h := p.encode(HeaderJson);
    var c := p.encode(p.marshal(IssuedClaims(userId, email, duration, now)));
    var s := p.sign(h + "." + c);
    var token := h + "." + c + "." + s;
    assert WellBehaved(p) ==> Split(token, '.') == [h, c, s] by {
      if WellBehaved(p) {
        SegmentsDotFree(p, HeaderJson, p.marshal(IssuedClaims(userId, email, duration, now)));
        TokenParts(h, c, s);
      }
    }
    token
  }

  lemma SegmentsDotFree(p: Primitives, header: string, claims: string)
    requires WellBehaved(p)
    ensures var h := p.encode(header);
            var c := p.encode(claims);
            '.' !in h && '.' !in c && '.' !in p.sign(h + "." + c)
            && p.decode(c) == Some(claims)
  {
  }

  datatype JwtError = BadFormat | BadSignature | BadEncoding | BadClaims | TokenExpired

  /** Three parts, the last one the signature of the first two. */
  predicate Signed(parts: seq<string>, p: Primitives) {
    |parts| == 3 && parts[2] == p.sign(parts[0] + "." + parts[1])
  }

  /** The claims the middle part carries, when it decodes and parses. */
  function CarriedClaims(parts: seq<string>, p: Primitives): Option<Claims>
    requires |parts| == 3
  {
    match p.decode(parts[1])
    case None => None
    case Some(json) => p.unmarshal(json)
  }

  /**
   * VerifyToken: exactly three dot-separated parts, then the signature, then
   * the claims encoding, then the claims JSON, then expiry; each error arises
   * exactly when its check is the first to fail.
   */
  function VerifyToken(token: string, now: Instant, p: Primitives): (r: Result<Claims, JwtError>)
    ensures var parts := Split(token, '.');
            |parts| != 3 <==> r == Err(BadFormat)
    ensures var parts := Split(token, '.');
            |parts| == 3 && !Signed(parts, p) <==> r == Err(BadSignature)
    ensures var parts := Split(token, '.');
            Signed(parts, p) && p.decode(parts[1]).None? <==> r == Err(BadEncoding)
    ensures var parts := Split(token, '.');
            Signed(parts, p) && p.decode(parts[1]).Some? && p.unmarshal(p.decode(parts[1]).value).None?
            <==> r == Err(BadClaims)
    ensures var parts := Split(token, '.');
            Signed(parts, p) && CarriedClaims(parts, p).Some? && Unix(now) > CarriedClaims(parts, p).value.expiresAt
            <==> r == Err(TokenExpired)
    ensures var parts := Split(token, '.');
            Signed(parts, p) && CarriedClaims(parts, p).Some? && Unix(now) <= CarriedClaims(parts, p).value.expiresAt
            <==> r.Ok?
    ensures r.Ok? ==> var parts := Split(token, '.');
                      |parts| == 3 && Some(r.value) == CarriedClaims(parts, p)
  {
    var parts := Split(token, '.');
    if |parts| != 3 then Err(BadFormat)
    else if parts[2] != p.sign(parts[0] + "." + parts[1]) then Err(BadSignature)
    else match p.decode(parts[1])
      case None => Err(BadEncoding)
      case Some(json) =>
        match p.unmarshal(json)
        case None => Err(BadClaims)
        case Some(claims) =>
          if Unix(now) > claims.expiresAt then Err(TokenExpired) else Ok(claims)
  }

  /** The signature is checked before the claims are looked at: decoding and JSON cannot affect a forged token. */
  lemma SignatureCheckedFirst(token: string, now: Instant, p: Primitives, q: Primitives)
    requires p.sign == q.sign
    requires var parts := Split(token, '.');
             |parts| == 3 && parts[2] != p.sign(parts[0] + "." + parts[1])
    ensures VerifyToken(token, now, p) == VerifyToken(token, now, q) == Err(BadSignature)
  {
  }

  /** Expiry is inclusive: a token is still accepted during its last second. */
  lemma ExpiryBoundary(token: string, now: Instant, p: Primitives, c: Claims)
    requires VerifyToken(token, now, p).Ok? || VerifyToken(token, now, p) == Err(TokenExpired)
    requires var parts := Split(token, '.');
             p.decode(parts[1]).Some? && p.unmarshal(p.decode(parts[1]).value) == Some(c)
    ensures VerifyToken(token, now, p).Ok? <==> Unix(now) <= c.expiresAt
  {
  }

  /** The three segments of a generated token come back from Split. */
  lemma TokenParts(h: string, c: string, s: string)
    ensures '.' !in h && '.' !in c && '.' !in s ==> Split(h + "." + c + "." + s, '.') == [h, c, s]
  {
    var parts := [h, c, s];
    assert Join(parts[2..], '.') == s;
    assert Join(parts[1..], '.') == c + "." + s;
    assert Join(parts, '.') == h + "." + c + "." + s;
    if '.' !in h && '.' !in c && '.' !in s {
      SplitJoin(parts, '.');
    }
  }

  /**
   * Round trip: a token generated at `issued` verifies at any `now` up to the
   * second it expires, and carries the user and email it was issued for.
   */
  lemma GenerateVerify(userId: Uuid, email: string, duration: int, issued: Instant, now: Instant, p: Primitives)
    requires WellBehaved(p)
    requires Unix(now) <= Unix(issued + duration)
    ensures VerifyToken(GenerateToken(userId, email, duration, issued, p), now, p)
            == Ok(IssuedClaims(userId, email, duration, issued))
  {
    var claims := IssuedClaims(userId, email, duration, issued);
    var h := p.encode(HeaderJson);
    var c := p.encode(p.marshal(claims));
    var s := p.sign(h + "." + c);
    TokenParts(h, c, s);
  }

  /** Past its expiry second the same token is refused as expired, not as forged. */
  lemma GeneratedTokenExpires(userId: Uuid, email: string, duration: int, issued: Instant, now: Instant, p: Primitives)
    requires WellBehaved(p)
    requires Unix(now) > Unix(issued + duration)
    ensures VerifyToken(GenerateToken(userId, email, duration, issued, p), now, p) == Err(TokenExpired)
  {
    var claims := IssuedClaims(userId, email, duration, issued);
    var h := p.encode(HeaderJson);
    var c := p.encode(p.marshal(claims));
    TokenParts(h, c, p.sign(h + "." + c));
  }
}

=== FILE: models.dfy ===
/**
 * The records of the paste service (internal/models) and the two tables the
 * repositories work on, abstracted as immutable maps.
 */
module Models {
  import opened Wrappers

  /** A uuid.UUID; the all-zero uuid.Nil is 0. */
  type Uuid = nat

  const NilUuid: Uuid := 0

  /** Every instant is a Go time.Time, held as nanoseconds since the Unix epoch. */
  type Instant = int

  /** One row of the `pastes` table. `password` is the stored hash, "" when public. */
  datatype Paste = Paste(
    id: Uuid,
    userId: Uuid,
    title: string,
    isPrivate: bool,
    content: string,
    language: string,
    url: string,
    password: string,
    expiresAt: Option<Instant>,
    createdAt: Instant,
    updatedAt: Instant)

  /** The body of a create request (models.PasteInput), with the expiry the handler fills in. */
  datatype PasteInput = PasteInput(
    title: string,
    content: string,
    language: string,
    password: string,
    expiresAt: Option<Instant>)

  /** What the repository returns for a paste: the row without its hash, joined with its view count. */
  datatype PasteOutput = PasteOutput(
    id: Uuid,
    userId: Uuid,
    title: string,
    isPrivate: bool,
    content: string,
    language: string,
    url: string,
    views: int,
    expiresAt: Option<Instant>,
    createdAt: Instant,
    updatedAt: Instant)

  /** models.PatchPaste: every field is present (Some) or absent (None). */
  datatype PatchPaste = PatchPaste(
    id: Option<Uuid>,
    userId: Option<Uuid>,
    title: Option<string>,
    content: Option<string>,
    language: Option<string>,
    isPrivate: Option<bool>,
    password: Option<string>)

  /** models.PasteFilters */
  datatype PasteFilters = PasteFilters(
    languages: seq<string>,
    dateFrom: Option<Instant>,
    dateTo: Option<Instant>,
    sortBy: string,
    sortOrder: string)

  /** One row of the view ledger `pastes_analytics`, keyed by the paste id it counts. */
  datatype ViewRecord = ViewRecord(
    id: Uuid,
    url: string,
    views: int,
    createdAt: Instant,
    updatedAt: Instant)

  /** models.Analytics: a ledger row as the analytics repository returns it. */
  datatype Analytics = Analytics(id: Uuid, pasteId: Uuid, url: string, views: int)

  /** The database: the pastes table and the view ledger. */
  datatype Db = Db(pastes: map<Uuid, Paste>, ledger: map<Uuid, ViewRecord>)

  /** The failures the model distinguishes (the source reports them as wrapped error strings). */
  datatype Error =
    | HashFailed            // utils.HashPassword returned an error
    | UrlTaken              // the insert hit the unique url of another paste
    | IdTaken               // a patch moved the row onto an id already in use
    | NotFound              // no row has the id, or not exactly one row matched
    | Expired               // "paste has expired"
    | IsPrivate             // "paste is private"
    | NegativePage          // the database refuses a negative LIMIT or OFFSET
    | NoIdentity            // GetUserIDFromContext failed
    | NilUser               // the caller id is uuid.Nil
    | NilFilter             // the filter pointer is nil
    | NotOwner              // "user does not have permission ..."
    | NilId                 // a nil paste or analytics id
    | EmptyUrl              // an empty url
    | DuplicateLedgerRow    // a second ledger row for the same paste id
    | AnalyticsNotFound     // "analytics not found for url"

  /** Go's check `ExpiresAt != nil && ExpiresAt.Before(now)`: gone strictly after the expiry. */
  predicate ExpiredAt(expiresAt: Option<Instant>, now: Instant) {
    expiresAt.Some? && expiresAt.value < now
  }

  /** SQL's check `expires_at IS NULL OR expires_at > NOW()`: visible strictly before the expiry. */
  predicate LiveAt(expiresAt: Option<Instant>, now: Instant) {
    expiresAt.None? || expiresAt.value > now
  }

  /**
   * The two notions of expiry agree except at the instant of expiry itself,
   * where the Go check still serves the paste and the SQL filter hides it.
   */
  lemma ExpiryDefinitionsDisagreeOnlyAtTheInstant(expiresAt: Option<Instant>, now: Instant)
    ensures LiveAt(expiresAt, now) ==> !ExpiredAt(expiresAt, now)
    ensures !LiveAt(expiresAt, now) && !ExpiredAt(expiresAt, now) <==> expiresAt == Some(now)
  {
  }

  /** COALESCE(a.views, 0): the count the ledger holds for a paste, 0 without a row. */
  function ViewsOf(ledger: map<Uuid, ViewRecord>, pasteId: Uuid): (n: int)
    ensures pasteId !in ledger ==> n == 0
  {
    if pasteId in ledger then ledger[pasteId].views else 0
  }

  /** The outward view of a row; the password hash never leaves the repository. */
  function ToOutput(p: Paste, views: int): PasteOutput {
    PasteOutput(p.id, p.userId, p.title, p.isPrivate, p.content, p.language, p.url,
                views, p.expiresAt, p.createdAt, p.updatedAt)
  }

  /** A repository or service call: the database after the call and what the call returned. */
  datatype Outcome<T> = Outcome(db: Db, result: Result<T, Error>)
}

=== FILE: ordering.dfy ===
/**
 * The row-order machinery of the SQL queries: enumerating a table's rows,
 * WHERE as a filter, ORDER BY as a sort on one key column and a direction,
 * and LIMIT / OFFSET as a page.
 */
module Ordering {
  import opened Text

  /** The value of an ORDER BY column: timestamps and counts are integers, titles are text. */
  datatype Key = IntKey(n: int) | TextKey(s: string)

  /** A total preorder on keys; integer and text keys never meet in one query. */
  predicate KeyLe(a: Key, b: Key) {
    match (a, b)
    case (IntKey(x), IntKey(y)) => x <= y
    case (TextKey(s), TextKey(t)) => TextLe(s, t)
    case (IntKey(_), TextKey(_)) => true
    case (TextKey(_), IntKey(_)) => false
  }

  lemma KeyLeTotal(a: Key, b: Key)
    ensures KeyLe(a, b) || KeyLe(b, a)
  {
    if a.TextKey? && b.TextKey? {
      TextLeTotal(a.s, b.s);
    }
  }

  lemma KeyLeTransitive(a: Key, b: Key, c: Key)
    requires KeyLe(a, b) && KeyLe(b, c)
    ensures KeyLe(a, c)
  {
    if a.TextKey? && b.TextKey? && c.TextKey? {
      TextLeTransitive(a.s, b.s, c.s);
    }
  }

  datatype Direction = Asc | Desc

  /** `a` may be listed before `b` under ORDER BY ... dir. */
  predicate Precedes(a: Key, b: Key, dir: Direction) {
    if dir == Asc then KeyLe(a, b) else KeyLe(b, a)
  }

  lemma PrecedesTotal(a: Key, b: Key, dir: Direction)
    ensures Precedes(a, b, dir) || Precedes(b, a, dir)
  {
    KeyLeTotal(a, b);
  }

  lemma PrecedesTransitive(a: Key, b: Key, c: Key, dir: Direction)
    requires Precedes(a, b, dir) && Precedes(b, c, dir)
    ensures Precedes(a, c, dir)
  {
    if dir == Asc {
      KeyLeTransitive(a, b, c);
    } else {
      KeyLeTransitive(c, b, a);
    }
  }

  ghost predicate Sorted<T>(xs: seq<T>, key: T -> Key, dir: Direction) {
    forall i, j :: 0 <= i < j < |xs| ==> Precedes(key(xs[i]), key(xs[j]), dir)
  }

  /** Places `x` in front of the first element it may precede. */
  function Insert<T(==)>(x: T, xs: seq<T>, key: T -> Key, dir: Direction): (r: seq<T>)
    requires Sorted(xs, key, dir)
    ensures multiset(r) == multiset(xs) + multiset{x}
    ensures Sorted(r, key, dir)
    decreases |xs|
  {
    if |xs| == 0 then [x]
    else if Precedes(key(x), key(xs[0]), dir) then
      InsertFront(x, xs, key, dir);
      [x] + xs
    else
      PrecedesTotal(key(x), key(xs[0]), dir);
      var rest := Insert(x, xs[1..], key, dir);
      InsertBehind(x, xs, rest, key, dir);
      [xs[0]] + rest
  }

  lemma InsertFront<T>(x: T, xs: seq<T>, key: T -> Key, dir: Direction)
    requires Sorted(xs, key, dir)
    requires |xs| > 0 && Precedes(key(x), key(xs[0]), dir)
    ensures Sorted([x] + xs, key, dir)
  {
    var r := [x] + xs;
    forall i, j | 0 <= i < j < |r|
      ensures Precedes(key(r[i]), key(r[j]), dir)
    {
      if i == 0 {
        if j > 1 { PrecedesTransitive(key(x), key(xs[0]), key(xs[j - 1]), dir); }
      } else {
        assert r[i] == xs[i - 1] && r[j] == xs[j - 1];
      }
    }
  }

  lemma InsertBehind<T>(x: T, xs: seq<T>, rest: seq<T>, key: T -> Key, dir: Direction)
    requires Sorted(xs, key, dir)
    requires |xs| > 0 && Precedes(key(xs[0]), key(x), dir)
    requires multiset(rest) == multiset(xs[1..]) + multiset{x}
    requires Sorted(rest, key, dir)
    ensures multiset([xs[0]] + rest) == multiset(xs) + multiset{x}
    ensures Sorted([xs[0]] + rest, key, dir)
  {
    assert xs == [xs[0]] + xs[1..];
    forall j | 0 <= j < |rest|
      ensures Precedes(key(xs[0]), key(rest[j]), dir)
    {
      assert rest[j] in multiset(rest);
      if rest[j] != x {
        assert rest[j] in multiset(xs[1..]);
        var k :| 1 <= k < |xs| && xs[k] == rest[j];
      }
    }
    var r := [xs[0]] + rest;
    forall i, j | 0 <= i < j < |r|
      ensures Precedes(key(r[i]), key(r[j]), dir)
    {
      if i == 0 {
        assert r[j] == rest[j - 1];
      } else {
        assert r[i] == rest[i - 1] && r[j] == rest[j - 1];
      }
    }
  }

  /** ORDER BY key dir: an insertion sort; rows with equal keys keep no promised order. */
  function SortBy<T(==)>(xs: seq<T>, key: T -> Key, dir: Direction): (r: seq<T>)
    ensures multiset(r) == multiset(xs)
    ensures |r| == |xs|
    ensures Sorted(r, key, dir)
    decreases |xs|
  {
    if |xs| == 0 then []
    else
      var sortedTail := SortBy(xs[1..], key, dir);
      assert xs == [xs[0]] + xs[1..];
      var r := Insert(xs[0], sortedTail, key, dir);
      assert |r| == |multiset(r)|;
      r
  }

  /** WHERE keep(row): the rows that satisfy the predicate, in their original order. */
  function Select<T(!new)>(xs: seq<T>, keep: T -> bool): (r: seq<T>)
    ensures |r| <= |xs|
    ensures forall i :: 0 <= i < |r| ==> keep(r[i])
    ensures forall x :: x in r <==> x in xs && keep(x)
    decreases |xs|
  {
    if |xs| == 0 then []
    else if keep(xs[0]) then [xs[0]] + Select(xs[1..], keep)
    else Select(xs[1..], keep)
  }

  lemma {:induction false} SelectDistinct<T(!new)>(xs: seq<T>, keep: T -> bool)
    requires Distinct(xs)
    ensures Distinct(Select(xs, keep))
    decreases |xs|
  {
    if |xs| > 0 {
      SelectDistinct(xs[1..], keep);
    }
  }

  /** How many of n rows LIMIT limit OFFSET offset returns. */
  function PageLength(n: nat, limit: nat, offset: nat): nat {
    if offset >= n then 0 else Min(limit, n - offset)
  }

  /** LIMIT limit OFFSET offset, on an already ordered result. */
  function Page<T>(xs: seq<T>, limit: nat, offset: nat): (r: seq<T>)
    ensures |r| == PageLength(|xs|, limit, offset)
    ensures forall i :: 0 <= i < |r| ==> r[i] == xs[offset + i]
  {
    if offset >= |xs| then [] else xs[offset..offset + Min(limit, |xs| - offset)]
  }

  /** A page of a result without repeats has none. */
  lemma PageDistinct<T>(xs: seq<T>, limit: nat, offset: nat)
    requires Distinct(xs)
    ensures Distinct(Page(xs, limit, offset))
  {
    var r := Page(xs, limit, offset);
    forall i, j | 0 <= i < j < |r|
      ensures r[i] != r[j]
    {
      assert r[i] == xs[offset + i] && r[j] == xs[offset + j];
    }
  }

  /** Two adjacent pages make up the page as long as both together. */
  lemma PageSplit<T>(xs: seq<T>, a: nat, b: nat, offset: nat)
    ensures Page(xs, a, offset) + Page(xs, b, offset + a) == Page(xs, a + b, offset)
  {
    var l := Page(xs, a, offset) + Page(xs, b, offset + a);
    var r := Page(xs, a + b, offset);
    assert |l| == |r|;
    forall i | 0 <= i < |l|
      ensures l[i] == r[i]
    {
      if i < |Page(xs, a, offset)| {
        assert l[i] == xs[offset + i];
      } else {
        assert l[i] == Page(xs, b, offset + a)[i - |Page(xs, a, offset)|];
      }
    }
  }

  /**
   * Pages of a positive `limit`: the next one is non-empty exactly when rows
   * remain past this one, the two together form the double-size page, and a
   * page with nothing after it runs to the end.
   */
  lemma AdjacentPages<T>(xs: seq<T>, limit: nat, offset: nat)
    requires limit >= 1
    ensures offset + limit < |xs| <==> |Page(xs, limit, offset + limit)| > 0
    ensures Page(xs, limit, offset) + Page(xs, limit, offset + limit) == Page(xs, 2 * limit, offset)
    ensures offset + limit >= |xs| && offset < |xs| ==> Page(xs, limit, offset) == xs[offset..]
  {
    PageSplit(xs, limit, limit, offset);
  }

  /** The rows a client reads by following pages of `limit` rows from `offset` until one comes back short. */
  function Walk<T>(xs: seq<T>, limit: nat, offset: nat): seq<T>
    requires limit >= 1
    decreases |xs| - offset
  {
    if offset >= |xs| then [] else Page(xs, limit, offset) + Walk(xs, limit, offset + limit)
  }

  /** Walking the pages returns every row from `offset` on, each once and in order. */
  lemma {:induction false} WalkCovers<T>(xs: seq<T>, limit: nat, offset: nat)
    requires limit >= 1 && offset <= |xs|
    ensures Walk(xs, limit, offset) == xs[offset..]
    decreases |xs| - offset
  {
    if offset < |xs| {
      var rest := Walk(xs, limit, offset + limit);
      assert Walk(xs, limit, offset) == Page(xs, limit, offset) + rest;
      if offset + limit < |xs| {
        WalkCovers(xs, limit, offset + limit);
        assert Min(limit, |xs| - offset) == limit;
        assert xs[offset..] == xs[offset..offset + limit] + xs[offset + limit..];
      } else {
        assert rest == [];
        assert Min(limit, |xs| - offset) == |xs| - offset;
      }
    }
  }

  /** A page of a sorted result is sorted. */
  lemma PageSorted<T>(xs: seq<T>, key: T -> Key, dir: Direction, limit: nat, offset: nat)
    ensures Sorted(xs, key, dir) ==> Sorted(Page(xs, limit, offset), key, dir)
    ensures forall x :: x in Page(xs, limit, offset) ==> x in xs
  {
    var r := Page(xs, limit, offset);
    if Sorted(xs, key, dir) {
      forall i, j | 0 <= i < j < |r|
        ensures Precedes(key(r[i]), key(r[j]), dir)
      {
        assert r[i] == xs[offset + i] && r[j] == xs[offset + j];
      }
    }
    forall x | x in r
      ensures x in xs
    {
      var i :| 0 <= i < |r| && r[i] == x;
      assert xs[offset + i] == x;
    }
  }

  function Min(a: int, b: int): int {
    if a <= b then a else b
  }

  ghost predicate Distinct<T>(xs: seq<T>) {
    forall i, j :: 0 <= i < j < |xs| ==> xs[i] != xs[j]
  }

  /** The set of the elements of a sequence. */
  ghost function Elements<T>(xs: seq<T>): set<T> {
    set x | x in xs
  }

  /** A sequence without repeats has as many elements as the set of its elements. */
  lemma {:induction false} DistinctCardinality<T>(xs: seq<T>)
    requires Distinct(xs)
    ensures |Elements(xs)| == |xs|
    decreases |xs|
  {
    if |xs| > 0 {
      var tail := xs[1..];
      DistinctCardinality(tail);
      assert Elements(xs) == {xs[0]} + Elements(tail);
      assert xs[0] !in tail;
    }
  }

  /** Without repeats, every value occurs at most once. */
  lemma {:induction false} DistinctCounts<T>(xs: seq<T>)
    requires Distinct(xs)
    ensures forall x :: multiset(xs)[x] <= 1
    decreases |xs|
  {
    if |xs| > 0 {
      var tail := xs[1..];
      assert xs == [xs[0]] + tail;
      assert Distinct(tail) by {
        forall i, j | 0 <= i < j < |tail|
          ensures tail[i] != tail[j]
        {
          assert tail[i] == xs[i + 1] && tail[j] == xs[j + 1];
        }
      }
      DistinctCounts(tail);
      assert xs[0] !in tail by {
        forall j | 0 <= j < |tail|
          ensures tail[j] != xs[0]
        {
          assert tail[j] == xs[j + 1];
        }
      }
    }
  }

  /** A sequence in which every value occurs at most once has no repeats. */
  lemma {:induction false} CountsDistinct<T>(xs: seq<T>)
    requires forall x :: multiset(xs)[x] <= 1
    ensures Distinct(xs)
    decreases |xs|
  {
    if |xs| > 0 {
      var tail := xs[1..];
      assert xs == [xs[0]] + tail;
      assert multiset(xs) == multiset{xs[0]} + multiset(tail);
      assert forall x :: multiset(tail)[x] <= multiset(xs)[x];
      CountsDistinct(tail);
      assert multiset(xs)[xs[0]] == 1 + multiset(tail)[xs[0]];
      assert xs[0] !in tail;
      forall i, j | 0 <= i < j < |xs|
        ensures xs[i] != xs[j]
      {
        assert xs[j] == tail[j - 1];
        if i > 0 {
          assert xs[i] == tail[i - 1];
        }
      }
    }
  }

  /** A permutation of a sequence without repeats has none. */
  lemma PermutationDistinct<T>(a: seq<T>, b: seq<T>)
    requires multiset(a) == multiset(b)
    requires Distinct(b)
    ensures Distinct(a)
  {
    DistinctCounts(b);
    CountsDistinct(a);
  }

  /** `m` is the least element of `s`. */
  predicate IsLeast(m: nat, s: set<nat>) {
    m in s && forall y :: y in s ==> m <= y
  }

  lemma {:induction false} LeastExists(s: set<nat>)
    requires s != {}
    ensures exists m :: IsLeast(m, s)
    decreases |s|
  {
    var x :| x in s;
    var rest := s - {x};
    assert forall y :: y in s ==> y == x || y in rest;
    if rest == {} {
      assert IsLeast(x, s);
    } else {
      LeastExists(rest);
      var m :| IsLeast(m, rest);
      if x < m {
        assert IsLeast(x, s);
      } else {
        assert IsLeast(m, s);
      }
    }
  }

  /**
   * The ids of a table in ascending order: the enumeration that stands for the
   * unspecified order in which a query without ORDER BY returns its rows.
   */
  function SortedIds(s: set<nat>): (r: seq<nat>)
    ensures |r| == |s|
    ensures forall x :: x in r <==> x in s
    ensures forall i, j :: 0 <= i < j < |r| ==> r[i] < r[j]
    decreases |s|
  {
    if s == {} then []
    else
      LeastExists(s);
      var m :| IsLeast(m, s);
      var rest := SortedIds(s - {m});
      SortedIdsCons(s, m, rest);
      [m] + rest
  }

  /** Putting the least element in front of the ascending rest gives the ascending whole. */
  lemma SortedIdsCons(s: set<nat>, m: nat, rest: seq<nat>)
    requires IsLeast(m, s)
    requires |rest| == |s - {m}|
    requires forall x :: x in rest <==> x in s - {m}
    requires forall i, j :: 0 <= i < j < |rest| ==> rest[i] < rest[j]
    ensures |[m] + rest| == |s|
    ensures forall x :: x in [m] + rest <==> x in s
    ensures forall i, j :: 0 <= i < j < |[m] + rest| ==> ([m] + rest)[i] < ([m] + rest)[j]
  {
    var r := [m] + rest;
    forall i, j | 0 <= i < j < |r|
      ensures r[i] < r[j]
    {
      if i == 0 {
        assert r[j] == rest[j - 1] && rest[j - 1] in rest;
      } else {
        assert r[i] == rest[i - 1] && r[j] == rest[j - 1];
      }
    }
  }

  lemma SortedIdsDistinct(s: set<nat>)
    ensures Distinct(SortedIds(s))
  {
  }

  /** The members of `s` that satisfy `keep`, each once, in ascending order. */
  function IdsWhere(s: set<nat>, keep: nat -> bool): (ids: seq<nat>)
    ensures Distinct(ids)
    ensures forall x :: x in ids <==> x in s && keep(x)
    ensures |ids| == |set x | x in s && keep(x)|
  {
    var all := SortedIds(s);
    var ids := Select(all, (x: nat) => x in s && keep(x));
    SortedIdsDistinct(s);
    SelectDistinct(all, (x: nat) => x in s && keep(x));
    IdsWhereCount(s, keep, ids);
    ids
  }

  lemma IdsWhereCount(s: set<nat>, keep: nat -> bool, ids: seq<nat>)
    requires Distinct(ids)
    requires forall x :: x in ids <==> x in s && keep(x)
    ensures |ids| == |set x | x in s && keep(x)|
  {
    DistinctCardinality(ids);
    var a := Elements(ids);
    var b := set x | x in s && keep(x);
    forall x | x in a ensures x in b { }
    forall x | x in b ensures x in a { }
    assert a == b;
  }
}

=== FILE: paste_handlers.dfy ===
/**
 * The decisions the paste handlers make before calling the service
 * (internal/handlers/pastes.go): pagination query parameters, the identity of
 * an optional-auth reader, and the expires_in query parameter. strconv.Atoi,
 * time.ParseDuration and the clock are parameters.
 */
module PasteHandlers {
  import opened Wrappers
  import opened Ordering
  import opened Models
  import AuthMiddleware
  import PasteService

  datatype HandlerError = InvalidLimit | InvalidOffset | InvalidExpiresIn

  const DefaultLimit: int := 10
  const DefaultOffset: int := 0

  /** One optional integer query parameter: absent means the default, otherwise it must parse and be at least `min`. */
  function QueryInt(text: string, default: int, min: int, atoi: string -> Option<int>): (r: Option<int>)
    ensures text == "" ==> r == Some(default)
    ensures text != "" ==> (r.Some? <==> atoi(text).Some? && atoi(text).value >= min)
    ensures text != "" && r.Some? ==> r == atoi(text)
  {
    if text == "" then Some(default)
    else match atoi(text)
      case None => None
      case Some(n) => if n < min then None else Some(n)
  }

  /**
   * The limit and offset of GetAllPastes: defaults 10 and 0, a 400 for a
   * limit that is not an integer of at least 1, then for an offset that is
   * not an integer of at least 0.
   */
  function ParsePagination(limitText: string, offsetText: string, atoi: string -> Option<int>)
    : (r: Result<(int, int), HandlerError>)
    ensures r.Ok? ==> r.value.0 >= 1 && r.value.1 >= 0
    ensures r == Err(InvalidLimit) <==> limitText != "" && (atoi(limitText).None? || atoi(limitText).value < 1)
    ensures r.Ok? && limitText == "" ==> r.value.0 == DefaultLimit
    ensures r.Ok? && offsetText == "" ==> r.value.1 == DefaultOffset
    ensures r.Ok? && limitText != "" ==> Some(r.value.0) == atoi(limitText)
    ensures r.Ok? && offsetText != "" ==> Some(r.value.1) == atoi(offsetText)
    ensures r == Err(InvalidOffset) <==> r != Err(InvalidLimit) && offsetText != ""
                                         && (atoi(offsetText).None? || atoi(offsetText).value < 0)
  {
    match QueryInt(limitText, DefaultLimit, 1, atoi)
    case None => Err(InvalidLimit)
    case Some(limit) =>
      match QueryInt(offsetText, DefaultOffset, 0, atoi)
      case None => Err(InvalidOffset)
      case Some(offset) => Ok((limit, offset))
  }

  /**
   * What the service makes of parameters the handler let through: the offset
   * is kept, and the limit is only ever lowered, to 100.
   */
  lemma HandlerThenServiceClamp(limitText: string, offsetText: string, atoi: string -> Option<int>)
    requires ParsePagination(limitText, offsetText, atoi).Ok?
    ensures var (limit, offset) := ParsePagination(limitText, offsetText, atoi).value;
            && PasteService.ClampLimit(limit) == Min(limit, PasteService.MaxLimit)
            && PasteService.ClampOffset(offset) == offset
  {
  }

  /** The reader of GetPasteByID: a failed identity lookup means an anonymous reader with the zero id. */
  function ReaderIdentity(id: Result<Uuid, AuthMiddleware.ContextError>): (reader: (bool, Uuid))
    ensures reader.0 <==> id.Ok?
    ensures id.Ok? ==> reader.1 == id.value
    ensures id.Err? ==> reader.1 == NilUuid
  {
    match id
    case Ok(userId) => (true, userId)
    case Err(_) => (false, NilUuid)
  }

  /** GetPasteByID behind the optional identity. */
  function GetPasteByID(db: Db, pasteId: Uuid, id: Result<Uuid, AuthMiddleware.ContextError>, now: Instant,
                        newRowId: Uuid, countOk: bool): (o: Outcome<PasteOutput>)
    ensures o.result.Ok? <==> pasteId in db.pastes && !ExpiredAt(db.pastes[pasteId].expiresAt, now)
    ensures (o.result.Ok? && countOk && (id.Err? || id.value != db.pastes[pasteId].userId))
            ==> ViewsOf(o.db.ledger, pasteId) == ViewsOf(db.ledger, pasteId) + 1
    ensures o.result.Ok? && id.Ok? && id.value == db.pastes[pasteId].userId ==> o.db == db
  {
    var (isAuthenticated, userId) := ReaderIdentity(id);
    PasteService.GetPasteByID(db, pasteId, isAuthenticated, userId, now, newRowId, countOk)
  }

  /**
   * An anonymous reader is never taken for the owner, not even of a paste
   * stored under the zero id.
   */
  lemma AnonymousReadAlwaysCounts(db: Db, pasteId: Uuid, e: AuthMiddleware.ContextError, now: Instant, newRowId: Uuid)
    requires pasteId in db.pastes && db.pastes[pasteId].userId == NilUuid
    requires !ExpiredAt(db.pastes[pasteId].expiresAt, now)
    ensures ViewsOf(GetPasteByID(db, pasteId, Err(e), now, newRowId, true).db.ledger, pasteId)
            == ViewsOf(db.ledger, pasteId) + 1
  {
  }

  /**
   * The expires_in query parameter of CreatePaste: empty leaves the paste
   * without expiry, a duration time.ParseDuration rejects is a 400, and
   * otherwise the paste expires that long after now.
   */
  function ApplyExpiresIn(input: PasteInput, expiresIn: string, now: Instant,
                          parseDuration: string -> Option<int>): (r: Result<PasteInput, HandlerError>)
    ensures expiresIn == "" ==> r == Ok(input)
    ensures expiresIn != "" && parseDuration(expiresIn).None? <==> r == Err(InvalidExpiresIn)
    ensures expiresIn != "" && parseDuration(expiresIn).Some? ==>
              r == Ok(input.(expiresAt := Some(now + parseDuration(expiresIn).value)))
  {
    if expiresIn == "" then Ok(input)
    else match parseDuration(expiresIn)
      case None => Err(InvalidExpiresIn)
      case Some(d) => Ok(input.(expiresAt := Some(now + d)))
  }

  /**
   * A positive duration gives a paste that is still readable right after it
   * was created and is gone once the duration has passed.
   */
  lemma ExpiresInBoundsLifetime(input: PasteInput, expiresIn: string, now: Instant,
                                parseDuration: string -> Option<int>, later: Instant)
    requires expiresIn != "" && parseDuration(expiresIn).Some? && parseDuration(expiresIn).value > 0
    ensures var r := ApplyExpiresIn(input, expiresIn, now, parseDuration);
            && r.Ok?
            && !ExpiredAt(r.value.expiresAt, now)
            && (later > now + parseDuration(expiresIn).value ==> ExpiredAt(r.value.expiresAt, later))
  {
  }
}

=== FILE: paste_repository.dfy ===
/**
 * The paste store (internal/repositories/paste_repository.go) over the
 * immutable tables of Models.Db. Each call is one atomic map update; the
 * clock, the generated identifiers, BASE_URL and the password hash are
 * parameters.
 */
module PasteRepository {
  import opened Wrappers
  import opened Text
  import opened Ordering
  import opened Models

  const DefaultTitle: string := "Untitled"
  const DefaultBaseUrl: string := "http://localhost:8080"
  const SlugLength: nat := 8
  const PathPrefix: string := "/p/"

  /** utils.HashPassword: the hash of a password, or None when hashing fails. */
  type Hasher = string -> Option<string>

  /** The title that is stored for a requested one. */
  function StoredTitle(title: string): (t: string)
    ensures title == "" ==> t == DefaultTitle
    ensures title != "" ==> t == title
  {
    if title == "" then DefaultTitle else title
  }

  /** os.Getenv("BASE_URL") with its fallback. */
  function BaseUrl(env: string): (b: string)
    ensures env == "" ==> b == DefaultBaseUrl
    ensures env != "" ==> b == env
  {
    if env == "" then DefaultBaseUrl else env
  }

  /** The share url of a paste: base url, "/p/", and the first eight characters of a fresh uuid. */
  function ShareUrl(baseEnv: string, uuidText: string): string
    requires |uuidText| >= SlugLength
  {
    BaseUrl(baseEnv) + PathPrefix + uuidText[..SlugLength]
  }

  /** Some row already uses this url. */
  predicate UrlInUse(pastes: map<Uuid, Paste>, url: string) {
    exists k :: k in pastes && pastes[k].url == url
  }

  /** A stored row is private exactly when it carries a password hash. */
  predicate PrivacyConsistent(p: Paste) {
    p.isPrivate <==> p.password != ""
  }

  /** bcrypt never returns an empty hash. */
  ghost predicate HashesNonEmpty(hash: Hasher) {
    forall pw :: hash(pw).Some? ==> hash(pw).value != ""
  }

  /**
   * CreatePaste. `freshId` is the id the database generates, `uuidText` the
   * text of uuid.New() the slug is cut from, `baseEnv` the BASE_URL variable.
   * The table is assumed to hold urls uniquely, so a colliding insert fails.
   */
  function CreatePaste(db: Db, userId: Uuid, input: PasteInput, uuidText: string, baseEnv: string,
                       freshId: Uuid, now: Instant, hash: Hasher): (o: Outcome<PasteOutput>)
    requires |uuidText| >= SlugLength
    ensures input.password != "" && hash(input.password).None? ==> o == Outcome(db, Err(HashFailed))
    ensures o.result.Err? ==> o.db == db
    ensures o.result.Ok? <==>
              (input.password == "" || hash(input.password).Some?)
              && freshId !in db.pastes && !UrlInUse(db.pastes, ShareUrl(baseEnv, uuidText))
    ensures o.result.Ok? ==>
              var out := o.result.value;
              && o.db.ledger == db.ledger
              && freshId in o.db.pastes
              && o.db.pastes == db.pastes[freshId := o.db.pastes[freshId]]
              && var row := o.db.pastes[freshId];
              && row.id == freshId && row.userId == userId
              && (input.title == "" ==> row.title == DefaultTitle)
              && (input.title != "" ==> row.title == input.title)
              && (row.isPrivate <==> input.password != "")
              && (input.password == "" ==> row.password == "")
              && (input.password != "" ==> row.password == hash(input.password).value)
              && row.content == input.content && row.language == input.language
              && row.expiresAt == input.expiresAt
              && row.createdAt == now && row.updatedAt == now
              && row.url == BaseUrl(baseEnv) + "/p/" + uuidText[..8]
              && out == ToOutput(row, 0)
  {
    var title := StoredTitle(input.title);
    var url := ShareUrl(baseEnv, uuidText);
    if input.password != "" && hash(input.password).None? then Outcome(db, Err(HashFailed))
    else
      var isPrivate := input.password != "";
      var stored := if isPrivate then hash(input.password).value else "";
      if freshId in db.pastes then Outcome(db, Err(IdTaken))
      else if UrlInUse(db.pastes, url) then Outcome(db, Err(UrlTaken))
      else
        var row := Paste(freshId, userId, title, isPrivate, input.content, input.language, url,
                         stored, input.expiresAt, now, now);
        Outcome(db.(pastes := db.pastes[freshId := row]), Ok(ToOutput(row, 0)))
  }

  /** The slug part of a share url is eight characters long and sits after "/p/". */
  lemma ShareUrlShape(baseEnv: string, uuidText: string)
    requires |uuidText| >= SlugLength
    ensures var url := ShareUrl(baseEnv, uuidText);
            HasSuffix(url, PathPrefix + uuidText[..SlugLength])
            && HasPrefix(url, BaseUrl(baseEnv))
  {
    var url := ShareUrl(baseEnv, uuidText);
    var suffix := PathPrefix + uuidText[..SlugLength];
    assert url == BaseUrl(baseEnv) + suffix;
    assert url[|url| - |suffix|..] == suffix;
    assert url[..|BaseUrl(baseEnv)|] == BaseUrl(baseEnv);
  }

  /** The value written to the password column by a patch that carries a password. */
  function PatchedPassword(pw: string, hash: Hasher): Option<string> {
    if pw == "" then Some("") else hash(pw)
  }

  /**
   * The row after a patch: present fields overwrite, a password also decides
   * is_private unless is_private is present, updated_at becomes `now`.
   */
  function Patched(p: Paste, patch: PatchPaste, storedPassword: string, now: Instant): Paste {
    p.(id := patch.id.GetOr(p.id),
       userId := patch.userId.GetOr(p.userId),
       title := patch.title.GetOr(p.title),
       content := patch.content.GetOr(p.content),
       language := patch.language.GetOr(p.language),
       password := if patch.password.Some? then storedPassword else p.password,
       isPrivate :=
         if patch.isPrivate.Some? then patch.isPrivate.value
         else if patch.password.Some? then patch.password.value != ""
         else p.isPrivate,
       updatedAt := now)
  }

  /** Where the patched row lives afterwards: a patch may rewrite the id column too. */
  function PatchedKey(pasteId: Uuid, patch: PatchPaste): Uuid {
    patch.id.GetOr(pasteId)
  }

  /** The patch carries a non-empty password that the hasher rejects. */
  predicate HashFails(patch: PatchPaste, hash: Hasher) {
    patch.password.Some? && PatchedPassword(patch.password.value, hash).None?
  }

  /** The patch moves the row onto an id another row already holds. */
  predicate IdCollides(db: Db, pasteId: Uuid, patch: PatchPaste) {
    PatchedKey(pasteId, patch) != pasteId && PatchedKey(pasteId, patch) in db.pastes
  }

  /**
   * UpdatePaste: hashing happens before the statement runs, the statement
   * touches the row with the id or reports "not found", and moving a row onto
   * another row's id violates the primary key.
   */
  function UpdatePaste(db: Db, pasteId: Uuid, patch: PatchPaste, now: Instant, hash: Hasher): (o: Outcome<()>)
    ensures o.result == Err(HashFailed) <==> HashFails(patch, hash)
    ensures o.result == Err(NotFound) <==> !HashFails(patch, hash) && pasteId !in db.pastes
    ensures o.result == Err(IdTaken) <==> !HashFails(patch, hash) && pasteId in db.pastes && IdCollides(db, pasteId, patch)
    ensures o.result.Ok? <==> !HashFails(patch, hash) && pasteId in db.pastes && !IdCollides(db, pasteId, patch)
    ensures pasteId !in db.pastes ==> o.result.Err? && o.db == db
    ensures o.result.Err? ==> o.db == db
    ensures o.result.Ok? ==>
              var key := PatchedKey(pasteId, patch);
              && pasteId in db.pastes
              && o.db.ledger == db.ledger
              && key in o.db.pastes
              && o.db.pastes.Keys == db.pastes.Keys - {pasteId} + {key}
              && o.db.pastes[key].updatedAt == now
              && (forall k :: k in db.pastes && k != pasteId ==> k in o.db.pastes && o.db.pastes[k] == db.pastes[k])
  {
    if patch.password.Some? && PatchedPassword(patch.password.value, hash).None? then Outcome(db, Err(HashFailed))
    else if pasteId !in db.pastes then Outcome(db, Err(NotFound))
    else
      var stored := if patch.password.Some? then PatchedPassword(patch.password.value, hash).value else "";
      var key := PatchedKey(pasteId, patch);
      var row := Patched(db.pastes[pasteId], patch, stored, now);
      if key != pasteId && key in db.pastes then Outcome(db, Err(IdTaken))
      else Outcome(db.(pastes := (db.pastes - {pasteId})[key := row]), Ok(()))
  }

  /** The row a successful patch left behind. */
  function PatchedRow(db: Db, pasteId: Uuid, patch: PatchPaste, now: Instant, hash: Hasher): Paste
    requires UpdatePaste(db, pasteId, patch, now, hash).result.Ok?
  {
    UpdatePaste(db, pasteId, patch, now, hash).db.pastes[PatchedKey(pasteId, patch)]
  }

  /** An empty password without is_private removes the protection: no hash, not private. */
  lemma UpdateEmptyPasswordMakesPublic(db: Db, pasteId: Uuid, patch: PatchPaste, now: Instant, hash: Hasher)
    requires patch.password == Some("") && patch.isPrivate.None?
    requires pasteId in db.pastes
    requires PatchedKey(pasteId, patch) == pasteId || PatchedKey(pasteId, patch) !in db.pastes
    ensures UpdatePaste(db, pasteId, patch, now, hash).result.Ok?
    ensures var row := PatchedRow(db, pasteId, patch, now, hash);
            row.password == "" && !row.isPrivate && PrivacyConsistent(row)
  {
  }

  /** A non-empty password without is_private stores its hash and makes the paste private. */
  lemma UpdatePasswordMakesPrivate(db: Db, pasteId: Uuid, patch: PatchPaste, now: Instant, hash: Hasher)
    requires patch.password.Some? && patch.password.value != "" && patch.isPrivate.None?
    requires UpdatePaste(db, pasteId, patch, now, hash).result.Ok?
    ensures hash(patch.password.value).Some?
    ensures var row := PatchedRow(db, pasteId, patch, now, hash);
            row.password == hash(patch.password.value).value && row.isPrivate
  {
  }

  /** An explicit is_private in the patch wins over what the password would imply. */
  lemma UpdateExplicitPrivacyWins(db: Db, pasteId: Uuid, patch: PatchPaste, now: Instant, hash: Hasher)
    requires patch.isPrivate.Some?
    requires UpdatePaste(db, pasteId, patch, now, hash).result.Ok?
    ensures PatchedRow(db, pasteId, patch, now, hash).isPrivate == patch.isPrivate.value
  {
  }

  /**
   * The sparse patch, field by field: a present field overwrites the column,
   * an absent one leaves it as it was; columns the patch cannot name keep
   * their values, and without a password or is_private the protection stays.
   */
  lemma UpdateLeavesAbsentFields(db: Db, pasteId: Uuid, patch: PatchPaste, now: Instant, hash: Hasher)
    requires UpdatePaste(db, pasteId, patch, now, hash).result.Ok?
    ensures pasteId in db.pastes
    ensures var row := PatchedRow(db, pasteId, patch, now, hash);
            var before := db.pastes[pasteId];
            && row.id == (if patch.id.Some? then patch.id.value else before.id)
            && row.userId == (if patch.userId.Some? then patch.userId.value else before.userId)
            && row.title == (if patch.title.Some? then patch.title.value else before.title)
            && row.content == (if patch.content.Some? then patch.content.value else before.content)
            && row.language == (if patch.language.Some? then patch.language.value else before.language)
            && row.url == before.url && row.expiresAt == before.expiresAt && row.createdAt == before.createdAt
            && row.updatedAt == now
            && (patch.password.None? ==> row.password == before.password)
            && (patch.password.None? && patch.isPrivate.None? ==> row.isPrivate == before.isPrivate)
  {
  }

  /**
   * Creating, and patching without an explicit is_private, keep every row's
   * is_private equal to "has a password hash".
   */
  lemma CreateKeepsPrivacyConsistent(db: Db, userId: Uuid, input: PasteInput, uuidText: string, baseEnv: string,
                                     freshId: Uuid, now: Instant, hash: Hasher)
    requires |uuidText| >= SlugLength
    requires HashesNonEmpty(hash)
    requires forall k :: k in db.pastes ==> PrivacyConsistent(db.pastes[k])
    ensures var o := CreatePaste(db, userId, input, uuidText, baseEnv, freshId, now, hash);
            forall k :: k in o.db.pastes ==> PrivacyConsistent(o.db.pastes[k])
  {
  }

  lemma UpdateKeepsPrivacyConsistent(db: Db, pasteId: Uuid, patch: PatchPaste, now: Instant, hash: Hasher)
    requires HashesNonEmpty(hash)
    requires patch.isPrivate.None?
    requires forall k :: k in db.pastes ==> PrivacyConsistent(db.pastes[k])
    ensures var o := UpdatePaste(db, pasteId, patch, now, hash);
            forall k :: k in o.db.pastes ==> PrivacyConsistent(o.db.pastes[k])
  {
    var o := UpdatePaste(db, pasteId, patch, now, hash);
    if o.result.Ok? {
      var key := PatchedKey(pasteId, patch);
      forall k | k in o.db.pastes
        ensures PrivacyConsistent(o.db.pastes[k])
      {
        if k != key {
          assert k in db.pastes && k != pasteId;
        }
      }
    }
  }

  /**
   * incrementViewCount: the upsert on the ledger. A missing row is inserted
   * with one view (its id is generated by the database); an existing row
   * gains one view.
   */
  function IncrementViewCount(ledger: map<Uuid, ViewRecord>, pasteId: Uuid, newRowId: Uuid, now: Instant)
    : (l: map<Uuid, ViewRecord>)
    ensures pasteId in l && l.Keys == ledger.Keys + {pasteId}
    ensures ViewsOf(l, pasteId) == ViewsOf(ledger, pasteId) + 1
    ensures pasteId !in ledger ==> l[pasteId].views == 1
    ensures l[pasteId].updatedAt == now
    ensures forall k :: k in ledger && k != pasteId ==> l[k] == ledger[k]
  {
    if pasteId in ledger then
      ledger[pasteId := ledger[pasteId].(views := ledger[pasteId].views + 1, updatedAt := now)]
    else
      ledger[pasteId := ViewRecord(newRowId, "", 1, now, now)]
  }

  /** The ledger after a best-effort increment: a failed statement changes nothing. */
  function CountView(ledger: map<Uuid, ViewRecord>, pasteId: Uuid, newRowId: Uuid, now: Instant, countOk: bool)
    : map<Uuid, ViewRecord>
  {
    if countOk then IncrementViewCount(ledger, pasteId, newRowId, now) else ledger
  }

  /**
   * GetPasteByID: missing or expired rows fail for every caller; anyone but the
   * authenticated owner counts one view. The returned count is the one read
   * before that increment. `countOk` says whether the increment statement succeeds.
   */
  function GetPasteByID(db: Db, pasteId: Uuid, isAuthenticated: bool, userId: Uuid, now: Instant,
                        newRowId: Uuid, countOk: bool): (o: Outcome<PasteOutput>)
    ensures pasteId !in db.pastes ==> o == Outcome(db, Err(NotFound))
    ensures pasteId in db.pastes && ExpiredAt(db.pastes[pasteId].expiresAt, now) ==> o == Outcome(db, Err(Expired))
    ensures o.result.Err? ==> o.db == db
    ensures o.result.Ok? <==> pasteId in db.pastes && !ExpiredAt(db.pastes[pasteId].expiresAt, now)
    ensures o.result.Ok? ==>
              && o.db.pastes == db.pastes
              && o.result.value == ToOutput(db.pastes[pasteId], ViewsOf(db.ledger, pasteId))
              && var isOwner := isAuthenticated && db.pastes[pasteId].userId == userId;
              && (isOwner || !countOk ==> o.db.ledger == db.ledger)
              && (!isOwner && countOk ==> ViewsOf(o.db.ledger, pasteId) == ViewsOf(db.ledger, pasteId) + 1)
              && (forall k :: k in db.ledger && k != pasteId ==> k in o.db.ledger && o.db.ledger[k] == db.ledger[k])
  {
    if pasteId !in db.pastes then Outcome(db, Err(NotFound))
    else
      var p := db.pastes[pasteId];
      if ExpiredAt(p.expiresAt, now) then Outcome(db, Err(Expired))
      else
        var out := ToOutput(p, ViewsOf(db.ledger, pasteId));
        var isOwner := isAuthenticated && p.userId == userId;
        if isOwner then Outcome(db, Ok(out))
        else Outcome(db.(ledger := CountView(db.ledger, pasteId, newRowId, now, countOk)), Ok(out))
  }

  /** A failing view increment never changes what the read returns. */
  lemma ReadIgnoresCountFailure(db: Db, pasteId: Uuid, isAuthenticated: bool, userId: Uuid, now: Instant, newRowId: Uuid)
    ensures GetPasteByID(db, pasteId, isAuthenticated, userId, now, newRowId, true).result
         == GetPasteByID(db, pasteId, isAuthenticated, userId, now, newRowId, false).result
  {
  }

  /** Every row sits under its own id. */
  predicate WellKeyed(pastes: map<Uuid, Paste>) {
    forall k :: k in pastes ==> pastes[k].id == k
  }

  lemma CreateKeepsWellKeyed(db: Db, userId: Uuid, input: PasteInput, uuidText: string, baseEnv: string,
                             freshId: Uuid, now: Instant, hash: Hasher)
    requires |uuidText| >= SlugLength
    requires WellKeyed(db.pastes)
    ensures WellKeyed(CreatePaste(db, userId, input, uuidText, baseEnv, freshId, now, hash).db.pastes)
  {
  }

  lemma UpdateKeepsWellKeyed(db: Db, pasteId: Uuid, patch: PatchPaste, now: Instant, hash: Hasher)
    requires WellKeyed(db.pastes)
    ensures WellKeyed(UpdatePaste(db, pasteId, patch, now, hash).db.pastes)
  {
    var o := UpdatePaste(db, pasteId, patch, now, hash);
    if o.result.Ok? {
      forall k | k in o.db.pastes
        ensures o.db.pastes[k].id == k
      {
        if k != PatchedKey(pasteId, patch) {
          assert k in db.pastes && k != pasteId;
        }
      }
    }
  }

  /** An expired paste is gone for every caller, its owner included, by id and by any slug. */
  lemma ExpiredPasteUnreadable(db: Db, pasteId: Uuid, isAuthenticated: bool, userId: Uuid, slug: string,
                               now: Instant, newRowId: Uuid, countOk: bool)
    requires WellKeyed(db.pastes)
    requires pasteId in db.pastes && ExpiredAt(db.pastes[pasteId].expiresAt, now)
    ensures GetPasteByID(db, pasteId, isAuthenticated, userId, now, newRowId, countOk).result.Err?
    ensures var o := GetPasteBySlug(db, slug, now, newRowId, countOk);
            o.result.Ok? ==> o.result.value.id != pasteId
  {
  }

  /** n reads by someone other than the owner add exactly n views. */
  function RepeatReads(db: Db, pasteId: Uuid, userId: Uuid, now: Instant, newRowId: Uuid, n: nat): Db
    decreases n
  {
    if n == 0 then db
    else RepeatReads(GetPasteByID(db, pasteId, true, userId, now, newRowId, true).db, pasteId, userId, now, newRowId, n - 1)
  }

  lemma {:induction false} NonOwnerReadsCountEach(db: Db, pasteId: Uuid, userId: Uuid, now: Instant, newRowId: Uuid, n: nat)
    requires pasteId in db.pastes && !ExpiredAt(db.pastes[pasteId].expiresAt, now)
    requires db.pastes[pasteId].userId != userId
    ensures RepeatReads(db, pasteId, userId, now, newRowId, n).pastes == db.pastes
    ensures ViewsOf(RepeatReads(db, pasteId, userId, now, newRowId, n).ledger, pasteId) == ViewsOf(db.ledger, pasteId) + n
    decreases n
  {
    if n > 0 {
      var next := GetPasteByID(db, pasteId, true, userId, now, newRowId, true).db;
      NonOwnerReadsCountEach(next, pasteId, userId, now, newRowId, n - 1);
    }
  }

  /** The owner's own reads never change the count. */
  lemma {:induction false} OwnerReadsDoNotCount(db: Db, pasteId: Uuid, now: Instant, newRowId: Uuid, n: nat)
    requires pasteId in db.pastes
    ensures RepeatReads(db, pasteId, db.pastes[pasteId].userId, now, newRowId, n) == db
    decreases n
  {
    if n > 0 {
      var owner := db.pastes[pasteId].userId;
      assert GetPasteByID(db, pasteId, true, owner, now, newRowId, true).db == db;
      OwnerReadsDoNotCount(db, pasteId, now, newRowId, n - 1);
    }
  }

  /** The ids of the rows that satisfy `keep`, each once, in id order. */
  function MatchingIds(pastes: map<Uuid, Paste>, keep: Paste -> bool): (ids: seq<Uuid>)
    ensures Distinct(ids)
    ensures forall id :: id in ids <==> id in pastes && keep(pastes[id])
    ensures |ids| == |set id | id in pastes && keep(pastes[id])|
  {
    var ids := IdsWhere(pastes.Keys, (id: nat) => id in pastes && keep(pastes[id]));
    MatchingCount(pastes, keep, ids);
    ids
  }

  lemma MatchingCount(pastes: map<Uuid, Paste>, keep: Paste -> bool, ids: seq<Uuid>)
    requires Distinct(ids)
    requires forall id :: id in ids <==> id in pastes && keep(pastes[id])
    ensures |ids| == |set id | id in pastes && keep(pastes[id])|
  {
    DistinctCardinality(ids);
    var a := Elements(ids);
    var b := set id | id in pastes && keep(pastes[id]);
    forall x | x in a ensures x in b { }
    forall x | x in b ensures x in a { }
    assert a == b;
  }

  /** The output rows of the given ids, joined with their view counts. */
  function Outputs(db: Db, ids: seq<Uuid>): (r: seq<PasteOutput>)
    requires forall id :: id in ids ==> id in db.pastes
    ensures |r| == |ids|
    ensures forall i :: 0 <= i < |ids| ==> r[i] == ToOutput(db.pastes[ids[i]], ViewsOf(db.ledger, ids[i]))
  {
    seq(|ids|, i requires 0 <= i < |ids| => assert ids[i] in ids; ToOutput(db.pastes[ids[i]], ViewsOf(db.ledger, ids[i])))
  }

  /** One page of a paste list and the number of pastes on all pages. */
  datatype PasteListing = PasteListing(pastes: seq<PasteOutput>, total: int)

  /** The rows GetAllPastes counts and lists: the owner's, not yet expired by the SQL clock. */
  predicate Listed(p: Paste, userId: Uuid, now: Instant) {
    p.userId == userId && LiveAt(p.expiresAt, now)
  }

  function ByCreatedAt(o: PasteOutput): Key {
    IntKey(o.createdAt)
  }

  /**
   * SELECT ... WHERE keep ORDER BY key dir: the outputs of exactly the rows
   * that satisfy `keep`, sorted.
   */
  function Listing(db: Db, keep: Paste -> bool, key: PasteOutput -> Key, dir: Direction): (r: seq<PasteOutput>)
    ensures |r| == |set id | id in db.pastes && keep(db.pastes[id])|
    ensures multiset(r) == multiset(Outputs(db, MatchingIds(db.pastes, keep)))
    ensures Sorted(r, key, dir)
    ensures forall o :: o in r ==> exists id :: id in db.pastes && keep(db.pastes[id]) && o == ToOutput(db.pastes[id], ViewsOf(db.ledger, id))
    ensures forall id :: id in db.pastes && keep(db.pastes[id]) ==> ToOutput(db.pastes[id], ViewsOf(db.ledger, id)) in r
  {
    var ids := MatchingIds(db.pastes, keep);
    var outs := Outputs(db, ids);
    var r := SortBy(outs, key, dir);
    OutputsSound(db, ids, keep, r);
    OutputsComplete(db, ids, keep, r);
    r
  }

  lemma OutputsSound(db: Db, ids: seq<Uuid>, keep: Paste -> bool, rows: seq<PasteOutput>)
    requires forall id :: id in ids <==> id in db.pastes && keep(db.pastes[id])
    requires multiset(rows) == multiset(Outputs(db, ids))
    ensures forall o :: o in rows ==> exists id :: id in db.pastes && keep(db.pastes[id]) && o == ToOutput(db.pastes[id], ViewsOf(db.ledger, id))
  {
    forall o | o in rows
      ensures exists id :: id in db.pastes && keep(db.pastes[id]) && o == ToOutput(db.pastes[id], ViewsOf(db.ledger, id))
    {
      assert o in multiset(Outputs(db, ids));
      var i :| 0 <= i < |ids| && Outputs(db, ids)[i] == o;
      assert ids[i] in ids;
    }
  }

  lemma OutputsComplete(db: Db, ids: seq<Uuid>, keep: Paste -> bool, rows: seq<PasteOutput>)
    requires forall id :: id in ids <==> id in db.pastes && keep(db.pastes[id])
    requires multiset(rows) == multiset(Outputs(db, ids))
    ensures forall id :: id in db.pastes && keep(db.pastes[id]) ==> ToOutput(db.pastes[id], ViewsOf(db.ledger, id)) in rows
  {
    forall id | id in db.pastes && keep(db.pastes[id])
      ensures ToOutput(db.pastes[id], ViewsOf(db.ledger, id)) in rows
    {
      var i :| 0 <= i < |ids| && ids[i] == id;
      assert Outputs(db, ids)[i] in multiset(Outputs(db, ids));
    }
  }

  function ListedBy(userId: Uuid, now: Instant): Paste -> bool {
    (p: Paste) => Listed(p, userId, now)
  }

  lemma ListedFacts(db: Db, userId: Uuid, now: Instant, all: seq<PasteOutput>)
    requires |all| == |set id | id in db.pastes && ListedBy(userId, now)(db.pastes[id])|
    requires forall o :: o in all ==> exists id :: id in db.pastes && ListedBy(userId, now)(db.pastes[id])
                                                 && o == ToOutput(db.pastes[id], ViewsOf(db.ledger, id))
    ensures |all| == |set id | id in db.pastes && Listed(db.pastes[id], userId, now)|
    ensures forall o :: o in all ==> o.userId == userId && LiveAt(o.expiresAt, now)
  {
    assert (set id | id in db.pastes && ListedBy(userId, now)(db.pastes[id]))
        == (set id | id in db.pastes && Listed(db.pastes[id], userId, now));
  }

  /** The output rows of the owner's live pastes, one per row, in id order. */
  function ListedRows(db: Db, userId: Uuid, now: Instant): seq<PasteOutput> {
    Outputs(db, MatchingIds(db.pastes, ListedBy(userId, now)))
  }

  /**
   * The unpaged result of GetAllPastes's query: the owner's live pastes,
   * each once (a permutation of ListedRows), newest first.
   */
  function OwnedLive(db: Db, userId: Uuid, now: Instant): (all: seq<PasteOutput>)
    ensures multiset(all) == multiset(ListedRows(db, userId, now))
    ensures |all| == |set id | id in db.pastes && Listed(db.pastes[id], userId, now)|
    ensures Sorted(all, ByCreatedAt, Desc)
    ensures forall o :: o in all ==> o.userId == userId && LiveAt(o.expiresAt, now)
    ensures forall id :: id in db.pastes && Listed(db.pastes[id], userId, now)
              ==> ToOutput(db.pastes[id], ViewsOf(db.ledger, id)) in all
  {
    var all := Listing(db, ListedBy(userId, now), ByCreatedAt, Desc);
    ListedFacts(db, userId, now, all);
    all
  }

  /** With every row stored under its own id, the listing has no repeats. */
  lemma OwnedLiveDistinct(db: Db, userId: Uuid, now: Instant)
    requires WellKeyed(db.pastes)
    ensures Distinct(OwnedLive(db, userId, now))
  {
    var ids := MatchingIds(db.pastes, ListedBy(userId, now));
    var rows := ListedRows(db, userId, now);
    forall i, j | 0 <= i < j < |rows|
      ensures rows[i] != rows[j]
    {
      assert ids[i] in ids && ids[j] in ids;
      assert rows[i].id == ids[i] && rows[j].id == ids[j];
    }
    PermutationDistinct(OwnedLive(db, userId, now), rows);
  }

  /** LIMIT / OFFSET over the newest-first list, with the size of the whole list. */
  function PageOf(all: seq<PasteOutput>, limit: nat, offset: nat): (l: PasteListing)
    ensures l.total == |all|
    ensures l.pastes == Page(all, limit, offset)
    ensures Sorted(all, ByCreatedAt, Desc) ==> Sorted(l.pastes, ByCreatedAt, Desc)
    ensures forall o :: o in l.pastes ==> o in all
  {
    PageSorted(all, ByCreatedAt, Desc, limit, offset);
    PasteListing(Page(all, limit, offset), |all|)
  }

  /** The owner's live pastes, counted, and the requested page of them. */
  function ListPage(db: Db, userId: Uuid, limit: nat, offset: nat, now: Instant): (l: PasteListing)
    ensures l.pastes == Page(OwnedLive(db, userId, now), limit, offset)
    ensures l.total == |OwnedLive(db, userId, now)|
    ensures l.total == |set id | id in db.pastes && Listed(db.pastes[id], userId, now)|
    ensures |l.pastes| == PageLength(l.total, limit, offset)
    ensures Sorted(l.pastes, ByCreatedAt, Desc)
    ensures forall o :: o in l.pastes ==> o.userId == userId && LiveAt(o.expiresAt, now)
  {
    var all := OwnedLive(db, userId, now);
    var l := PageOf(all, limit, offset);
    assert l.total == |all|;
    l
  }

  /**
   * GetAllPastes: the total of the owner's live pastes and the LIMIT/OFFSET
   * window of them, newest first. The database rejects a negative LIMIT or OFFSET.
   */
  function GetAllPastes(db: Db, userId: Uuid, limit: int, offset: int, now: Instant): (r: Result<PasteListing, Error>)
    ensures r.Err? <==> limit < 0 || offset < 0
    ensures r.Ok? ==>
              && r.value.pastes == Page(OwnedLive(db, userId, now), limit, offset)
              && r.value.total == |OwnedLive(db, userId, now)|
              && r.value.total == |set id | id in db.pastes && Listed(db.pastes[id], userId, now)|
              && |r.value.pastes| == PageLength(r.value.total, limit, offset)
              && Sorted(r.value.pastes, ByCreatedAt, Desc)
              && (forall o :: o in r.value.pastes ==> o.userId == userId && LiveAt(o.expiresAt, now))
  {
    if limit < 0 || offset < 0 then Err(NegativePage)
    else
      Ok(ListPage(db, userId, limit, offset, now))
  }

  /** A page holds no paste twice. */
  lemma GetAllPastesNoRepeats(db: Db, userId: Uuid, limit: int, offset: int, now: Instant)
    requires WellKeyed(db.pastes)
    ensures var r := GetAllPastes(db, userId, limit, offset, now);
            r.Ok? ==> Distinct(r.value.pastes)
  {
    if limit >= 0 && offset >= 0 {
      OwnedLiveDistinct(db, userId, now);
      PageDistinct(OwnedLive(db, userId, now), limit, offset);
    }
  }

  /** DeletePasteByID: removes the row; the ledger row stays behind. */
  function DeletePasteByID(db: Db, pasteId: Uuid): (o: Outcome<()>)
    ensures pasteId !in db.pastes <==> o.result.Err?
    ensures o.result.Err? ==> o == Outcome(db, Err(NotFound))
    ensures o.result.Ok? ==> o.db.pastes == db.pastes - {pasteId} && o.db.ledger == db.ledger
  {
    if pasteId !in db.pastes then Outcome(db, Err(NotFound))
    else Outcome(db.(pastes := db.pastes - {pasteId}), Ok(()))
  }

  /** The rows whose url ends in "/p/" + slug (the LIKE pattern read literally). */
  function SlugMatches(pastes: map<Uuid, Paste>, slug: string): (ids: seq<Uuid>)
    ensures forall id :: id in ids <==> id in pastes && HasSuffix(pastes[id].url, PathPrefix + slug)
  {
    MatchingIds(pastes, (p: Paste) => HasSuffix(p.url, PathPrefix + slug))
  }

  /**
   * GetPasteBySlug: exactly one row must match; expired and private pastes
   * are refused; every successful read counts a view, owner or not.
   */
  function GetPasteBySlug(db: Db, slug: string, now: Instant, newRowId: Uuid, countOk: bool): (o: Outcome<PasteOutput>)
    ensures o.result.Err? ==> o.db == db
    ensures |SlugMatches(db.pastes, slug)| != 1 ==> o == Outcome(db, Err(NotFound))
    ensures o.result.Ok? ==>
              var ids := SlugMatches(db.pastes, slug);
              && |ids| == 1
              && var p := db.pastes[ids[0]];
              && HasSuffix(p.url, PathPrefix + slug)
              && !ExpiredAt(p.expiresAt, now)
              && !p.isPrivate && !o.result.value.isPrivate
              && o.result.value == ToOutput(p, ViewsOf(db.ledger, p.id))
              && o.db.pastes == db.pastes
              && (countOk ==> ViewsOf(o.db.ledger, p.id) == ViewsOf(db.ledger, p.id) + 1)
              && (!countOk ==> o.db.ledger == db.ledger)
              && (forall k :: k in db.ledger && k != p.id ==> k in o.db.ledger && o.db.ledger[k] == db.ledger[k])
    ensures |SlugMatches(db.pastes, slug)| == 1 ==>
              var p := db.pastes[SlugMatches(db.pastes, slug)[0]];
              (o.result.Ok? <==> !ExpiredAt(p.expiresAt, now) && !p.isPrivate)
  {
    var ids := SlugMatches(db.pastes, slug);
    if |ids| != 1 then Outcome(db, Err(NotFound))
    else
      assert ids[0] in ids;
      var p := db.pastes[ids[0]];
      if ExpiredAt(p.expiresAt, now) then Outcome(db, Err(Expired))
      else if p.isPrivate then Outcome(db, Err(IsPrivate))
      else
        var out := ToOutput(p, ViewsOf(db.ledger, p.id));
        Outcome(db.(ledger := CountView(db.ledger, p.id, newRowId, now, countOk)), Ok(out))
  }

  /** The ORDER BY columns FilterPastes accepts. */
  datatype SortColumn = CreatedAt | UpdatedAt | ViewCount | Title

  /** The allow-list: any other sort_by falls back to created_at. */
  function SortColumnOf(sortBy: string): (c: SortColumn)
    ensures sortBy !in {"updated_at", "views", "title"} ==> c == CreatedAt
    ensures sortBy == "updated_at" <==> c == UpdatedAt
    ensures sortBy == "views" <==> c == ViewCount
    ensures sortBy == "title" <==> c == Title
  {
    match sortBy
    case "created_at" => CreatedAt
    case "updated_at" => UpdatedAt
    case "views" => ViewCount
    case "title" => Title
    case _ => CreatedAt
  }

  /** Ascending only for "asc" or "ASC"; anything else sorts descending. */
  function SortDirectionOf(sortOrder: string): (d: Direction)
    ensures d == Asc <==> sortOrder == "asc" || sortOrder == "ASC"
  {
    if sortOrder == "asc" || sortOrder == "ASC" then Asc else Desc
  }

  function ColumnName(c: SortColumn): string {
    match c
    case CreatedAt => "p.created_at"
    case UpdatedAt => "p.updated_at"
    case ViewCount => "views"
    case Title => "p.title"
  }

  function DirectionName(d: Direction): string {
    if d == Asc then "ASC" else "DESC"
  }

  /** The column and direction FilterPastes sorts by; no filter means newest first. */
  function FilterOrder(filter: Option<PasteFilters>): (SortColumn, Direction) {
    match filter
    case None => (CreatedAt, Desc)
    case Some(f) => (SortColumnOf(f.sortBy), SortDirectionOf(f.sortOrder))
  }

  /** The ORDER BY text the query is built with. */
  function OrderClause(filter: Option<PasteFilters>): (clause: string)
    ensures clause in AllowedOrderClauses
  {
    var (c, d) := FilterOrder(filter);
    ClauseAllowed(c, d);
    ColumnName(c) + " " + DirectionName(d)
  }

  lemma ClauseAllowed(c: SortColumn, d: Direction)
    ensures ColumnName(c) + " " + DirectionName(d) in AllowedOrderClauses
  {
    var clause := ColumnName(c) + " " + DirectionName(d);
    match c
    case CreatedAt =>
      assert clause == (if d == Asc then "p.created_at ASC" else "p.created_at DESC");
    case UpdatedAt =>
      assert clause == (if d == Asc then "p.updated_at ASC" else "p.updated_at DESC");
    case ViewCount =>
      assert clause == (if d == Asc then "views ASC" else "views DESC");
    case Title =>
      assert clause == (if d == Asc then "p.title ASC" else "p.title DESC");
  }

  /** Every ORDER BY text FilterPastes can produce: none contains caller text. */
  const AllowedOrderClauses: set<string> := {
    "p.created_at ASC", "p.created_at DESC", "p.updated_at ASC", "p.updated_at DESC",
    "views ASC", "views DESC", "p.title ASC", "p.title DESC"
  }

  /** An unknown sort_by and an unknown sort_order give the default created_at DESC. */
  lemma UnknownSortFallsBack(f: PasteFilters)
    requires f.sortBy !in {"created_at", "updated_at", "views", "title"}
    requires f.sortOrder !in {"asc", "ASC"}
    ensures OrderClause(Some(f)) == OrderClause(None) == "p.created_at DESC"
  {
  }

  function SortKey(c: SortColumn): PasteOutput -> Key {
    match c
    case CreatedAt => (o: PasteOutput) => IntKey(o.createdAt)
    case UpdatedAt => (o: PasteOutput) => IntKey(o.updatedAt)
    case ViewCount => (o: PasteOutput) => IntKey(o.views)
    case Title => (o: PasteOutput) => TextKey(o.title)
  }

  /** The WHERE clause of FilterPastes. */
  predicate FilterMatch(p: Paste, userId: Uuid, filter: Option<PasteFilters>, now: Instant) {
    && LiveAt(p.expiresAt, now)
    && p.userId == userId
    && match filter
       case None => true
       case Some(f) =>
         && (|f.languages| > 0 ==> p.language in f.languages)
         && (f.dateFrom.Some? ==> p.createdAt >= f.dateFrom.value)
         && (f.dateTo.Some? ==> p.createdAt <= f.dateTo.value)
  }

  function FilterBy(userId: Uuid, filter: Option<PasteFilters>, now: Instant): Paste -> bool {
    (p: Paste) => FilterMatch(p, userId, filter, now)
  }

  lemma FilterFacts(db: Db, userId: Uuid, filter: Option<PasteFilters>, now: Instant, r: seq<PasteOutput>)
    requires |r| == |set id | id in db.pastes && FilterBy(userId, filter, now)(db.pastes[id])|
    requires forall o :: o in r ==> exists id :: id in db.pastes && FilterBy(userId, filter, now)(db.pastes[id])
                                               && o == ToOutput(db.pastes[id], ViewsOf(db.ledger, id))
    requires forall id :: id in db.pastes && FilterBy(userId, filter, now)(db.pastes[id])
               ==> ToOutput(db.pastes[id], ViewsOf(db.ledger, id)) in r
    ensures |r| == |set id | id in db.pastes && FilterMatch(db.pastes[id], userId, filter, now)|
    ensures forall o :: o in r ==> o.userId == userId && LiveAt(o.expiresAt, now)
    ensures forall o :: o in r && filter.Some? && |filter.value.languages| > 0 ==> o.language in filter.value.languages
    ensures forall o :: o in r && filter.Some? && filter.value.dateFrom.Some? ==> o.createdAt >= filter.value.dateFrom.value
    ensures forall o :: o in r && filter.Some? && filter.value.dateTo.Some? ==> o.createdAt <= filter.value.dateTo.value
    ensures forall id :: id in db.pastes && FilterMatch(db.pastes[id], userId, filter, now)
              ==> ToOutput(db.pastes[id], ViewsOf(db.ledger, id)) in r
  {
    assert (set id | id in db.pastes && FilterBy(userId, filter, now)(db.pastes[id]))
        == (set id | id in db.pastes && FilterMatch(db.pastes[id], userId, filter, now));
  }

  /**
   * FilterPastes: only the caller's live pastes, narrowed by the language set
   * and the inclusive created_at range, sorted by the allow-listed column.
   */
  function FilterPastes(db: Db, userId: Uuid, filter: Option<PasteFilters>, now: Instant): (r: seq<PasteOutput>)
    ensures multiset(r) == multiset(Outputs(db, MatchingIds(db.pastes, FilterBy(userId, filter, now))))
    ensures |r| == |set id | id in db.pastes && FilterMatch(db.pastes[id], userId, filter, now)|
    ensures Sorted(r, SortKey(FilterOrder(filter).0), FilterOrder(filter).1)
    ensures forall o :: o in r ==> o.userId == userId && LiveAt(o.expiresAt, now)
    ensures forall o :: o in r && filter.Some? && |filter.value.languages| > 0 ==> o.language in filter.value.languages
    ensures forall o :: o in r && filter.Some? && filter.value.dateFrom.Some? ==> o.createdAt >= filter.value.dateFrom.value
    ensures forall o :: o in r && filter.Some? && filter.value.dateTo.Some? ==> o.createdAt <= filter.value.dateTo.value
    ensures forall id :: id in db.pastes && FilterMatch(db.pastes[id], userId, filter, now)
              ==> ToOutput(db.pastes[id], ViewsOf(db.ledger, id)) in r
  {
    var (c, d) := FilterOrder(filter);
    var r := Listing(db, FilterBy(userId, filter, now), SortKey(c), d);
    FilterFacts(db, userId, filter, now, r);
    r
  }

  /** With every row stored under its own id, the filtered list holds each matching paste once. */
  lemma FilterPastesDistinct(db: Db, userId: Uuid, filter: Option<PasteFilters>, now: Instant)
    requires WellKeyed(db.pastes)
    ensures Distinct(FilterPastes(db, userId, filter, now))
  {
    var ids := MatchingIds(db.pastes, FilterBy(userId, filter, now));
    var rows := Outputs(db, ids);
    forall i, j | 0 <= i < j < |rows|
      ensures rows[i] != rows[j]
    {
      assert ids[i] in ids && ids[j] in ids;
      assert rows[i].id == ids[i] && rows[j].id == ids[j];
    }
    PermutationDistinct(FilterPastes(db, userId, filter, now), rows);
  }
}

=== FILE: paste_service.dfy ===
/**
 * internal/services/paste_service.go: identity checks, argument
 * normalisation and the owner check around the paste repository. `caller` is
 * what GetUserIDFromContext reported: the user id, or None when it failed.
 */
module PasteService {
  import opened Wrappers
  import opened Ordering
  import opened Models
  import Repo = PasteRepository

  /** CreatePaste: the new paste belongs to the caller; without a caller nothing is stored. */
  function CreatePaste(db: Db, caller: Option<Uuid>, input: PasteInput, uuidText: string, baseEnv: string,
                       freshId: Uuid, now: Instant, hash: Repo.Hasher): (o: Outcome<PasteOutput>)
    requires |uuidText| >= Repo.SlugLength
    ensures caller.None? ==> o == Outcome(db, Err(NoIdentity))
    ensures caller.Some? ==> o == Repo.CreatePaste(db, caller.value, input, uuidText, baseEnv, freshId, now, hash)
    ensures o.result.Err? ==> o.db == db
    ensures o.result.Ok? ==> caller.Some? && freshId !in db.pastes && freshId in o.db.pastes
                             && o.db.pastes[freshId].userId == caller.value
                             && o.result.value.userId == caller.value
                             && o.db.ledger == db.ledger
  {
    match caller
    case None => Outcome(db, Err(NoIdentity))
    case Some(userId) => Repo.CreatePaste(db, userId, input, uuidText, baseEnv, freshId, now, hash)
  }

  /**
   * UpdatePaste as written: the caller must be known and the paste readable
   * (present and not expired), but any caller may then patch it. The read
   * goes through GetPasteByID as an authenticated caller, so it counts a view
   * when the caller is not the owner.
   */
  function UpdatePaste(db: Db, caller: Option<Uuid>, pasteId: Uuid, patch: PatchPaste, now: Instant,
                       newRowId: Uuid, countOk: bool, hash: Repo.Hasher): (o: Outcome<()>)
    ensures caller.None? ==> o == Outcome(db, Err(NoIdentity))
    ensures (caller.Some? && (pasteId !in db.pastes || ExpiredAt(db.pastes[pasteId].expiresAt, now)))
            ==> o == Outcome(db, Err(NotFound))
    ensures o.result.Ok? ==> caller.Some? && pasteId in db.pastes && !ExpiredAt(db.pastes[pasteId].expiresAt, now)
    ensures caller.Some? && pasteId in db.pastes && !ExpiredAt(db.pastes[pasteId].expiresAt, now)
            ==> o.result == Repo.UpdatePaste(db, pasteId, patch, now, hash).result
    ensures o.result.Ok? <==> && caller.Some? && pasteId in db.pastes && !ExpiredAt(db.pastes[pasteId].expiresAt, now)
                              && !Repo.HashFails(patch, hash) && !Repo.IdCollides(db, pasteId, patch)
    ensures o.result.Ok? ==> o.db.pastes == Repo.UpdatePaste(db, pasteId, patch, now, hash).db.pastes
    ensures o.result.Err? ==> o.db.pastes == db.pastes
    ensures ReadCounted(db, caller, pasteId, now, countOk) ==> ViewsOf(o.db.ledger, pasteId) == ViewsOf(db.ledger, pasteId) + 1
    ensures !ReadCounted(db, caller, pasteId, now, countOk) ==> o.db.ledger == db.ledger
    ensures forall k :: k in db.ledger && k != pasteId ==> k in o.db.ledger && o.db.ledger[k] == db.ledger[k]
  {
    match caller
    case None => Outcome(db, Err(NoIdentity))
    case Some(userId) =>
      var read := Repo.GetPasteByID(db, pasteId, true, userId, now, newRowId, countOk);
      if read.result.Err? then Outcome(read.db, Err(NotFound))
      else Repo.UpdatePaste(read.db, pasteId, patch, now, hash)
  }

  /**
   * The read in front of an update or delete counts a view: the paste is
   * readable, the caller is not its owner, and the increment succeeds. This
   * happens whether or not the update itself then goes through.
   */
  predicate ReadCounted(db: Db, caller: Option<Uuid>, pasteId: Uuid, now: Instant, countOk: bool) {
    && caller.Some? && countOk
    && pasteId in db.pastes && !ExpiredAt(db.pastes[pasteId].expiresAt, now)
    && db.pastes[pasteId].userId != caller.value
  }

  /** The missing ownership check: a stranger's patch of a live paste goes through. */
  lemma StrangerCanUpdate(db: Db, stranger: Uuid, pasteId: Uuid, title: string, now: Instant,
                          newRowId: Uuid, countOk: bool, hash: Repo.Hasher)
    requires pasteId in db.pastes && db.pastes[pasteId].userId != stranger
    requires !ExpiredAt(db.pastes[pasteId].expiresAt, now)
    ensures var patch := PatchPaste(None, None, Some(title), None, None, None, None);
            var o := UpdatePaste(db, Some(stranger), pasteId, patch, now, newRowId, countOk, hash);
            && o.result.Ok?
            && pasteId in o.db.pastes
            && o.db.pastes[pasteId].title == title
            && o.db.pastes[pasteId].userId != stranger
  {
  }

  /**
   * UpdatePaste with the ownership check DeletePasteByID already has: only
   * the owner's patch is applied.
   */
  function UpdatePasteOwnerChecked(db: Db, caller: Option<Uuid>, pasteId: Uuid, patch: PatchPaste, now: Instant,
                                   newRowId: Uuid, countOk: bool, hash: Repo.Hasher): (o: Outcome<()>)
    ensures caller.None? ==> o == Outcome(db, Err(NoIdentity))
    ensures (caller.Some? && (pasteId !in db.pastes || ExpiredAt(db.pastes[pasteId].expiresAt, now)))
            ==> o == Outcome(db, Err(NotFound))
    ensures (caller.Some? && pasteId in db.pastes && db.pastes[pasteId].userId != caller.value)
            ==> o.result.Err? && o.db.pastes == db.pastes
    ensures o.result.Ok? ==> caller.Some? && pasteId in db.pastes && db.pastes[pasteId].userId == caller.value
                             && !ExpiredAt(db.pastes[pasteId].expiresAt, now)
                             && o.db == Repo.UpdatePaste(db, pasteId, patch, now, hash).db
    ensures o.result.Err? ==> o.db.pastes == db.pastes
    ensures ReadCounted(db, caller, pasteId, now, countOk) ==> ViewsOf(o.db.ledger, pasteId) == ViewsOf(db.ledger, pasteId) + 1
    ensures !ReadCounted(db, caller, pasteId, now, countOk) ==> o.db.ledger == db.ledger
  {
    match caller
    case None => Outcome(db, Err(NoIdentity))
    case Some(userId) =>
      var read := Repo.GetPasteByID(db, pasteId, true, userId, now, newRowId, countOk);
      if read.result.Err? then Outcome(read.db, Err(NotFound))
      else if read.result.value.userId != userId then Outcome(read.db, Err(NotOwner))
      else Repo.UpdatePaste(read.db, pasteId, patch, now, hash)
  }

  /** With the check, the owner's patch does what the unchecked one does, and no view is counted. */
  lemma OwnerCheckOnlyRejectsStrangers(db: Db, userId: Uuid, pasteId: Uuid, patch: PatchPaste, now: Instant,
                                       newRowId: Uuid, countOk: bool, hash: Repo.Hasher)
    requires pasteId in db.pastes && db.pastes[pasteId].userId == userId
    ensures UpdatePasteOwnerChecked(db, Some(userId), pasteId, patch, now, newRowId, countOk, hash)
         == UpdatePaste(db, Some(userId), pasteId, patch, now, newRowId, countOk, hash)
  {
  }

  /** GetPasteByID: the repository's read, with the error wrapped. */
  function GetPasteByID(db: Db, pasteId: Uuid, isAuthenticated: bool, userId: Uuid, now: Instant,
                        newRowId: Uuid, countOk: bool): (o: Outcome<PasteOutput>)
    ensures o.result.Ok? <==> pasteId in db.pastes && !ExpiredAt(db.pastes[pasteId].expiresAt, now)
    ensures o.result.Ok? ==> o.result.value.id == db.pastes[pasteId].id
                             && o.result.value.views == ViewsOf(db.ledger, pasteId)
    ensures o.result.Err? ==> o.db == db
  {
    Repo.GetPasteByID(db, pasteId, isAuthenticated, userId, now, newRowId, countOk)
  }

  const DefaultLimit: int := 10
  const MaxLimit: int := 100

  /** The page size actually used: 10 when none (or a non-positive one) is asked for, at most 100. */
  function ClampLimit(limit: int): (l: int)
    ensures 1 <= l <= MaxLimit
    ensures limit <= 0 ==> l == DefaultLimit
    ensures limit > MaxLimit ==> l == MaxLimit
    ensures 1 <= limit <= MaxLimit ==> l == limit
  {
    if limit <= 0 then DefaultLimit else if limit > MaxLimit then MaxLimit else limit
  }

  /** A negative offset becomes 0. */
  function ClampOffset(offset: int): (k: int)
    ensures k >= 0
    ensures offset >= 0 ==> k == offset
    ensures offset < 0 ==> k == 0
  {
    if offset < 0 then 0 else offset
  }

  /** models.PaginatedPastesResponse */
  datatype PaginatedPastes = PaginatedPastes(pastes: seq<PasteOutput>, total: int, limit: int, offset: int, hasMore: bool)

  /** GetAllPastes: a page of the caller's live pastes with normalised limit and offset, and whether more follow. */
  function GetAllPastes(db: Db, userId: Uuid, limit: int, offset: int, now: Instant): (r: Result<PaginatedPastes, Error>)
    ensures r.Ok?
    ensures r.value.limit == ClampLimit(limit) && r.value.offset == ClampOffset(offset)
    ensures r.value.pastes == Page(Repo.OwnedLive(db, userId, now), r.value.limit, r.value.offset)
    ensures r.value.total == |Repo.OwnedLive(db, userId, now)|
    ensures r.value.total == |set id | id in db.pastes && Repo.Listed(db.pastes[id], userId, now)|
    ensures r.value.hasMore <==> r.value.offset + r.value.limit < r.value.total
    ensures |r.value.pastes| == PageLength(r.value.total, r.value.limit, r.value.offset)
    ensures forall o :: o in r.value.pastes ==> o.userId == userId && LiveAt(o.expiresAt, now)
  {
    var l := ClampLimit(limit);
    var k := ClampOffset(offset);
    var listing := Repo.GetAllPastes(db, userId, l, k, now);
    match listing
    case Err(e) => Err(e)
    case Ok(page) => Ok(PaginatedPastes(page.pastes, page.total, l, k, k + l < page.total))
  }

  /**
   * hasMore is exactly "the next page is not empty"; without hasMore the
   * page holds every remaining paste, in order.
   */
  lemma HasMoreMeansNextPage(db: Db, userId: Uuid, limit: int, offset: int, now: Instant,
                              page: PaginatedPastes, next: PaginatedPastes)
    requires GetAllPastes(db, userId, limit, offset, now) == Ok(page)
    requires GetAllPastes(db, userId, page.limit, page.offset + page.limit, now) == Ok(next)
    ensures page.hasMore <==> |next.pastes| > 0
    ensures !page.hasMore && page.offset < page.total ==> page.pastes == Repo.OwnedLive(db, userId, now)[page.offset..]
  {
    AdjacentPages(Repo.OwnedLive(db, userId, now), page.limit, page.offset);
  }

  /**
   * A client that reads the pages from offset 0 while hasMore holds gets
   * every live paste of the user, each exactly once, newest first.
   */
  lemma EveryPasteOnce(db: Db, userId: Uuid, limit: int, now: Instant)
    requires Repo.WellKeyed(db.pastes)
    ensures var all := Repo.OwnedLive(db, userId, now);
            && Walk(all, ClampLimit(limit), 0) == all
            && Distinct(all)
  {
    var all := Repo.OwnedLive(db, userId, now);
    WalkCovers(all, ClampLimit(limit), 0);
    assert all[0..] == all;
    Repo.OwnedLiveDistinct(db, userId, now);
  }

  /**
   * DeletePasteByID: only the owner of a readable paste may delete it. A
   * stranger's attempt fails but, going through the authenticated read, still
   * counts a view; the paste itself stays.
   */
  function DeletePasteByID(db: Db, caller: Option<Uuid>, pasteId: Uuid, now: Instant,
                           newRowId: Uuid, countOk: bool): (o: Outcome<()>)
    ensures caller.None? ==> o == Outcome(db, Err(NoIdentity))
    ensures (caller.Some? && pasteId in db.pastes && db.pastes[pasteId].userId != caller.value)
            ==> o.result == Err(NotOwner) || o.result == Err(Expired)
    ensures o.result.Err? ==> o.db.pastes == db.pastes
    ensures o.result.Ok? <==> caller.Some? && pasteId in db.pastes && db.pastes[pasteId].userId == caller.value
                              && !ExpiredAt(db.pastes[pasteId].expiresAt, now)
    ensures o.result.Ok? ==> o.db.pastes == db.pastes - {pasteId} && o.db.ledger == db.ledger
    ensures ReadCounted(db, caller, pasteId, now, countOk)
            ==> o.result == Err(NotOwner) && ViewsOf(o.db.ledger, pasteId) == ViewsOf(db.ledger, pasteId) + 1
    ensures !ReadCounted(db, caller, pasteId, now, countOk) ==> o.db.ledger == db.ledger
    ensures forall k :: k in db.ledger && k != pasteId ==> k in o.db.ledger && o.db.ledger[k] == db.ledger[k]
  {
    match caller
    case None => Outcome(db, Err(NoIdentity))
    case Some(userId) =>
      var read := Repo.GetPasteByID(db, pasteId, true, userId, now, newRowId, countOk);
      if read.result.Err? then Outcome(read.db, Err(read.result.error))
      else if read.result.value.userId != userId then Outcome(read.db, Err(NotOwner))
      else Repo.DeletePasteByID(read.db, pasteId)
  }

  /** Even its owner cannot delete a paste once it has expired: the read in front of the delete fails. */
  lemma ExpiredPasteUndeletable(db: Db, userId: Uuid, pasteId: Uuid, now: Instant, newRowId: Uuid, countOk: bool)
    requires pasteId in db.pastes && ExpiredAt(db.pastes[pasteId].expiresAt, now)
    ensures DeletePasteByID(db, Some(userId), pasteId, now, newRowId, countOk) == Outcome(db, Err(Expired))
  {
  }

  /** FilterPastes: needs a filter and a known, non-Nil caller, and returns only that caller's pastes. */
  function FilterPastes(db: Db, caller: Option<Uuid>, filter: Option<PasteFilters>, now: Instant)
    : (r: Result<seq<PasteOutput>, Error>)
    ensures filter.None? <==> r == Err(NilFilter)
    ensures filter.Some? && caller.None? <==> r == Err(NoIdentity)
    ensures filter.Some? && caller == Some(NilUuid) <==> r == Err(NilUser)
    ensures r.Ok? <==> filter.Some? && caller.Some? && caller.value != NilUuid
    ensures r.Ok? ==> forall o :: o in r.value ==> o.userId == caller.value && LiveAt(o.expiresAt, now)
    ensures r.Ok? ==> r.value == Repo.FilterPastes(db, caller.value, filter, now)
  {
    if filter.None? then Err(NilFilter)
    else match caller
      case None => Err(NoIdentity)
      case Some(userId) =>
        if userId == NilUuid then Err(NilUser)
        else Ok(Repo.FilterPastes(db, userId, filter, now))
  }

  /**
   * GetPasteBySlug: needs a known, non-Nil caller. The service refuses a
   * private paste of another user, but the repository has already refused
   * every private paste, so that check never fires.
   */
  function GetPasteBySlug(db: Db, caller: Option<Uuid>, slug: string, now: Instant,
                          newRowId: Uuid, countOk: bool): (o: Outcome<PasteOutput>)
    ensures caller.None? ==> o == Outcome(db, Err(NoIdentity))
    ensures caller == Some(NilUuid) ==> o == Outcome(db, Err(NilUser))
    ensures o.result.Err? ==> o.db == db
    ensures o.result.Ok? ==> caller.Some? && caller.value != NilUuid
                             && (!o.result.value.isPrivate || o.result.value.userId == caller.value)
  {
    match caller
    case None => Outcome(db, Err(NoIdentity))
    case Some(userId) =>
      if userId == NilUuid then Outcome(db, Err(NilUser))
      else
        var found := Repo.GetPasteBySlug(db, slug, now, newRowId, countOk);
        if found.result.Err? then found
        else
          var paste := found.result.value;
          if paste.userId != userId && paste.isPrivate then Outcome(found.db, Err(NotOwner))
          else found
  }

  /** For a non-Nil caller the service's answer is the repository's: the privacy check adds nothing. */
  lemma SlugPrivacyCheckNeverFires(db: Db, userId: Uuid, slug: string, now: Instant, newRowId: Uuid, countOk: bool)
    requires userId != NilUuid
    ensures GetPasteBySlug(db, Some(userId), slug, now, newRowId, countOk)
         == Repo.GetPasteBySlug(db, slug, now, newRowId, countOk)
  {
  }
}

=== FILE: text.dfy ===
/**
 * String helpers the Go standard library provides (strings.HasPrefix,
 * strings.Split, strings.SplitN, strings.Contains, len, fmt's %d) and the
 * codepoint order used to sort text columns.
 */
module Text {

  /** strings.HasPrefix */
  predicate HasPrefix(s: string, prefix: string) {
    |prefix| <= |s| && s[..|prefix|] == prefix
  }

  /** strings.HasSuffix; also the model of SQL `LIKE '%' || suffix` without wildcards. */
  predicate HasSuffix(s: string, suffix: string) {
    |suffix| <= |s| && s[|s| - |suffix|..] == suffix
  }

  /** Index of the first occurrence of `c` in `s`. */
  function IndexOf(s: string, c: char): (i: nat)
    requires c in s
    ensures i < |s| && s[i] == c
    ensures c !in s[..i]
  {
    if s[0] == c then 0
    else
      assert c in s[1..] by {
        var k :| 0 <= k < |s| && s[k] == c;
        assert s[1..][k - 1] == c;
      }
      var j := IndexOf(s[1..], c);
      assert s[..j + 1] == [s[0]] + s[1..][..j];
      1 + j
  }

  /** Inverse of Split: the parts glued together with `sep` between neighbours. */
  function Join(parts: seq<string>, sep: char): string
    requires |parts| >= 1
  {
    if |parts| == 1 then parts[0] else parts[0] + [sep] + Join(parts[1..], sep)
  }

  /** strings.Split(s, string(sep)): n separators give n + 1 parts. */
  function Split(s: string, sep: char): (parts: seq<string>)
    ensures |parts| >= 1
    ensures forall i :: 0 <= i < |parts| ==> sep !in parts[i]
    ensures Join(parts, sep) == s
    decreases |s|
  {
    if sep !in s then [s]
    else
      var i := IndexOf(s, sep);
      var rest := Split(s[i + 1..], sep);
      assert s == s[..i] + [sep] + s[i + 1..];
      [s[..i]] + rest
  }

  /** Splitting a join of separator-free parts gives the parts back. */
  lemma {:induction false} SplitJoin(parts: seq<string>, sep: char)
    requires |parts| >= 1
    requires forall i :: 0 <= i < |parts| ==> sep !in parts[i]
    ensures Split(Join(parts, sep), sep) == parts
    decreases |parts|
  {
    if |parts| > 1 {
      var s := Join(parts, sep);
      var tail := parts[1..];
      assert sep !in parts[0];
      assert s == parts[0] + [sep] + Join(tail, sep);
      assert s[|parts[0]|] == sep;
      assert s[..|parts[0]|] == parts[0];
      var i := IndexOf(s, sep);
      assert i == |parts[0]|;
      assert s[i + 1..] == Join(tail, sep);
      SplitJoin(tail, sep);
    }
  }

  /** strings.SplitN(s, string(sep), 2): at most two parts, split at the first separator. */
  function SplitN2(s: string, sep: char): (parts: seq<string>)
    ensures 1 <= |parts| <= 2
    ensures |parts| == 1 <==> sep !in s
    ensures |parts| == 1 ==> parts[0] == s
    ensures |parts| == 2 ==> s == parts[0] + [sep] + parts[1] && sep !in parts[0]
  {
    if sep !in s then [s]
    else
      var i := IndexOf(s, sep);
      assert s == s[..i] + [sep] + s[i + 1..];
      [s[..i], s[i + 1..]]
  }

  /** strings.Contains(s, string(c)) */
  predicate ContainsChar(s: string, c: char) {
    c in s
  }

  /** Number of UTF-8 bytes that encode one Unicode scalar value. */
  function Utf8Width(c: char): (w: nat)
    ensures 1 <= w <= 4
    ensures w == 1 <==> (c as int) < 0x80
  {
    if (c as int) < 0x80 then 1
    else if (c as int) < 0x800 then 2
    else if (c as int) < 0x10000 then 3
    else 4
  }

  /** Go's len(s) on a string: its length in UTF-8 bytes, not in characters. */
  function ByteLen(s: string): (n: nat)
    ensures n >= |s|
    ensures n == |s| <==> forall i :: 0 <= i < |s| ==> (s[i] as int) < 0x80
  {
    if |s| == 0 then 0
    else
      var n := Utf8Width(s[0]) + ByteLen(s[1..]);
      assert forall i :: 1 <= i < |s| ==> s[1..][i - 1] == s[i];
      n
  }

  /** One decimal digit as a character. */
  function DigitChar(d: nat): (c: char)
    requires d < 10
    ensures '0' <= c <= '9'
  {
    "0123456789"[d]
  }

  /** fmt's %d for a non-negative integer. */
  function NatToString(n: nat): (s: string)
    ensures |s| >= 1
    ensures forall i :: 0 <= i < |s| ==> '0' <= s[i] <= '9'
    decreases n
  {
    if n < 10 then [DigitChar(n)] else NatToString(n / 10) + [DigitChar(n % 10)]
  }

  /** Reads decimal digits back; the partner of NatToString. */
  function ParseDigits(s: string): int
    decreases |s|
  {
    if |s| == 0 then 0
    else 10 * ParseDigits(s[..|s| - 1]) + ((s[|s| - 1] as int) - ('0' as int))
  }

  lemma DigitCharValue(d: nat)
    requires d < 10
    ensures (DigitChar(d) as int) - ('0' as int) == d
  {
  }

  /** Printing with %d and reading the digits back gives the number. */
  lemma {:induction false} NatToStringRoundTrip(n: nat)
    ensures ParseDigits(NatToString(n)) == n
    decreases n
  {
    var s := NatToString(n);
    if n < 10 {
      DigitCharValue(n);
    } else {
      NatToStringRoundTrip(n / 10);
      DigitCharValue(n % 10);
      assert s[..|s| - 1] == NatToString(n / 10);
    }
  }

  /** Different numbers print differently, so no two placeholders collide. */
  lemma NatToStringInjective(m: nat, n: nat)
    requires m != n
    ensures NatToString(m) != NatToString(n)
  {
    NatToStringRoundTrip(m);
    NatToStringRoundTrip(n);
  }

  /** Lexicographic order on Unicode code points (byte order of the UTF-8 encodings). */
  predicate TextLe(s: string, t: string)
    decreases |s|
  {
    if |s| == 0 then true
    else if |t| == 0 then false
    else if s[0] != t[0] then s[0] < t[0]
    else TextLe(s[1..], t[1..])
  }

  lemma {:induction false} TextLeTotal(s: string, t: string)
    ensures TextLe(s, t) || TextLe(t, s)
    decreases |s|
  {
    if |s| > 0 && |t| > 0 && s[0] == t[0] {
      TextLeTotal(s[1..], t[1..]);
    }
  }

  lemma {:induction false} TextLeTransitive(s: string, t: string, u: string)
    requires TextLe(s, t) && TextLe(t, u)
    ensures TextLe(s, u)
    decreases |s|
  {
    if |s| > 0 && |t| > 0 && |u| > 0 && s[0] == t[0] && t[0] == u[0] {
      TextLeTransitive(s[1..], t[1..], u[1..]);
    }
  }
}

=== FILE: wrappers.dfy ===
/** Failure-compatible wrappers shared by every module of the model. */
module Wrappers {

  /** A value that may be absent: Go's nil pointer, NULL column or missing map key. */
  datatype Option<+T> = None | Some(value: T) {
    function GetOr(default: T): T {
      match this
      case Some(v) => v
      case None => default
    }
  }

  /** Either a value or the error a Go function returns beside a zero value. */
  datatype Result<+T, +E> = Ok(value: T) | Err(error: E) {
    predicate IsFailure() {
      Err?
    }

    function PropagateFailure<U>(): Result<U, E>
      requires Err?
    {
      Err(error)
    }

    function Extract(): T
      requires Ok?
    {
      value
    }
  }
}
